=== FILE: README.md ===
# VEML7700 driver and light-sensor publisher, modelled in Dafny

This project models two pieces of the firmware of a Matter light sensor.

- **The VEML7700 driver** (`CVeml7700Ctrl`). It keeps copies of two 16-bit
  chip registers: the ALS configuration register and the power-saving
  register.
  - Each setter patches a bit-field into its copy, then writes the whole
    word to the chip over I2C.
  - Each getter extracts a field from the copy. It can re-read the chip
    first.
  - `initialize` programs a fixed start-up configuration.
  - `read_measurement` is an auto-ranging search over a table of gains and
    a table of integration times.
- **The publish side of `CLightSensor`.** It keeps the illuminance
  attribute value and the previous value, and publishes only changes. It
  also clears an echo flag when the Matter stack reports a change of the
  MeasuredValue attribute.

Modules:

- `Wrappers`: `Option`.
- `Bus`: the I2C bus as an oracle.
  - The k-th transaction of a driver's life gets the answer `o(k)`: `Nak`,
    or `Ack(lo, hi)` with the two bytes a read returns.
  - The driver records every transaction in a trace.
  - The little-endian register codec lives here.
- `Registers`: the field layout of both registers and the bit-vector
  facts about it. Each field is a mask, a shift and a number of legal
  values.
- `Veml7700`: the driver as an immutable value. Every operation returns
  the driver afterwards, together with the boolean the source returns.
  - A null output pointer is `None`.
  - A missing I2C controller is `hasBus == false`.
- `AutoRange`: `read_measurement`, the two lookup tables, and the lux
  conversion over the reals.
- `DriverProperties`: properties that relate several driver operations.
- `LightSensor`: the publish state machine.
  - The lux-to-attribute transform is a parameter `t`. It is the
    MeasuredValue encoding of section 2.2 of the Matter Application
    Cluster Specification.
  - So is the effect of the shared attribute-update routine on the echo
    flag.
  - A publish is an event appended to a trace.

The code is followed where a plain description of the driver would differ
from it:

- Every write-through setter updates the cached word before the bus write.
  After a failed write, the cache holds the value that never reached the
  chip.
- `set_gain` and `set_als_persistence` clear their field before the range
  check. A refused value is not written, but the cached field is already 0.

## Model

| member | source | states |
|---|---|---|
| Bus.Encode | main/src/peripheral/veml7700.cpp:403-407 | the write frame is the command code, then the low byte, then the high byte, and decoding its two data bytes gives back the value |
| Bus.Decode | main/src/peripheral/veml7700.cpp:390 | the two received bytes are the low and the high byte of the register value |
| Bus.Sent | main/src/peripheral/veml7700.cpp:384-408 | a read puts only its command code on the wire; a write puts the code and then two data bytes that decode back to the value written |
| Bus.EncodeDecode | main/src/peripheral/veml7700.cpp:390-407 | encoding a decoded register value reproduces the two received bytes, so the codec round-trips in both directions |
| Registers.InsertGet | main/src/peripheral/veml7700.cpp:213-375 | a value that fits its field is read back unchanged by the field's getter mask and shift |
| Registers.InsertOthers | main/src/peripheral/veml7700.cpp:213-375 | writing an in-range value into a field changes no bit outside that field |
| Registers.ClearedGet | main/src/peripheral/veml7700.cpp:264 | a cleared field reads as zero |
| Registers.OthersIdempotent | main/src/peripheral/veml7700.cpp:310 | clearing a field twice is the same as clearing it once |
| Registers.PowerOnMask | main/src/peripheral/veml7700.cpp:215 | the field model of power_on is the literal `&= 0xFFFE` |
| Registers.ShutdownMask | main/src/peripheral/veml7700.cpp:221 | the field model of shutdown is OR-ing in 0x0001 |
| Registers.InterruptMask | main/src/peripheral/veml7700.cpp:241-244 | the field model of set_enable_interrupt is OR-ing in 0x0002 or `&= 0xFFFD` |
| Registers.PersistenceMask | main/src/peripheral/veml7700.cpp:264-269 | the field model of set_als_persistence is `&= 0xFFCF` followed by OR-ing in the value shifted by 4 |
| Registers.IntegrationTimeMask | main/src/peripheral/veml7700.cpp:289-290 | the field model of set_als_integration_time is `&= 0xFC3F` followed by OR-ing in the unmasked value shifted by 6 |
| Registers.GainMask | main/src/peripheral/veml7700.cpp:310-315 | the field model of set_gain is `&= 0xE7FF` followed by OR-ing in the value shifted by 11 |
| Registers.PowerSaveEnableMask | main/src/peripheral/veml7700.cpp:335-338 | the field model of set_enable_power_saving is OR-ing in 0x0001 or `&= 0xFFFE` |
| Registers.PowerSaveModeMask | main/src/peripheral/veml7700.cpp:358-359 | the field model of set_power_saving_mode is `&= 0xFFF9` followed by OR-ing in the unmasked value shifted by 1 |
| Registers.ShutdownGetterMask | main/src/peripheral/veml7700.cpp:233 | the shutdown field is 1 exactly when bit 0 is set |
| Registers.InterruptEnableGetterMask | main/src/peripheral/veml7700.cpp:256 | the interrupt-enable field is 1 exactly when bit 1 is set |
| Registers.PersistenceGetterMask | main/src/peripheral/veml7700.cpp:281 | the persistence field is `(reg & 0x0030) >> 4` |
| Registers.IntegrationTimeGetterMask | main/src/peripheral/veml7700.cpp:302 | the integration-time field is `(reg & 0x03C0) >> 6` |
| Registers.GainGetterMask | main/src/peripheral/veml7700.cpp:327 | the gain field is `(reg & 0x1800) >> 11` |
| Registers.PowerSaveEnableGetterMask | main/src/peripheral/veml7700.cpp:350 | the power-saving enable field is 1 exactly when bit 0 is set |
| Registers.PowerSaveModeGetterMask | main/src/peripheral/veml7700.cpp:371 | the power-saving mode field is `(reg & 0x0006) >> 1` |
| Registers.IntegrationTimeKeepsOuterBits | main/src/peripheral/veml7700.cpp:287-292 | even an out-of-range integration code never changes bits 0 to 5 or 14 to 15 |
| Registers.IntegrationTimeSpill | main/src/peripheral/veml7700.cpp:287-292 | an integration code of 16 or more spills into bits 10 to 13 |
| Registers.IntegrationTimeSpillsIntoGain | main/src/peripheral/veml7700.cpp:287-292 | the spill ORs bits 5 and 6 of the integration code into the gain field |
| Registers.PowerSaveModeKeepsOuterBits | main/src/peripheral/veml7700.cpp:356-361 | even an out-of-range power-saving mode never changes bit 0 (the enable bit) or bits 9 to 15 |
| Registers.PowerSaveModeSpill | main/src/peripheral/veml7700.cpp:356-361 | a mode of 4 or more spills into bit 3 and up |
| Registers.InitialConfig | main/src/peripheral/veml7700.cpp:81-87 | initialize's six configuration setters, in order, turn the seeded word c into `(c & 0xE40C)` with bit 12 set (0x1000) |
| Registers.InitialPowerSave | main/src/peripheral/veml7700.cpp:86 | set_power_saving_mode(false) turns the seeded power-saving word p into `p & 0xFFF9` |
| Registers.InitialShutdown | main/src/peripheral/veml7700.cpp:87 | the word initialize leaves has the shutdown bit clear |
| Registers.InitialInterruptEnable | main/src/peripheral/veml7700.cpp:82 | the word initialize leaves has the interrupt disabled |
| Registers.InitialPersistence | main/src/peripheral/veml7700.cpp:83 | the word initialize leaves holds persistence code 0x00 (1 sample) |
| Registers.InitialPowerSaveMode | main/src/peripheral/veml7700.cpp:86 | the power-saving word initialize leaves holds mode 0x00 (mode 1) |
| Registers.InitialGain | main/src/peripheral/veml7700.cpp:84 | the word initialize leaves holds gain code 0x02 (1/8) |
| Registers.InitialIntegrationTime | main/src/peripheral/veml7700.cpp:85 | the word initialize leaves holds integration code 0x00 (100 ms) |
| Registers.InitialPowerSaveEnable | main/src/peripheral/veml7700.cpp:86 | initialize leaves the power-saving enable bit as the seeding read found it |
| Registers.GainChangeKeepsIntegrationTime | main/src/peripheral/veml7700.cpp:310-315 | changing only the gain field keeps the integration-time field |
| Registers.IntegrationChangeKeepsGain | main/src/peripheral/veml7700.cpp:289-290 | changing only the integration-time field keeps the gain field |
| Veml7700.ReadRegister | main/src/peripheral/veml7700.cpp:377-394 | with no controller: fails and sends nothing; otherwise one write-then-read transaction, success iff answered, value decoded little-endian; caches untouched |
| Veml7700.WriteRegister | main/src/peripheral/veml7700.cpp:396-412 | with no controller: fails and sends nothing; otherwise one write of the encoded frame, success iff acknowledged |
| Veml7700.WriteThenReadBack | main/src/peripheral/veml7700.cpp:377-412 | a register written and read back unchanged by the chip yields the value written |
| Veml7700.Sync | main/src/peripheral/veml7700.cpp:227-230 | with read_register set, re-read the register into its cache; a failed read fails and keeps the cache |
| Veml7700.WriteConfig | main/src/peripheral/veml7700.cpp:419-422 | writes the cached configuration word to command code 0x00 |
| Veml7700.WritePowerSave | main/src/peripheral/veml7700.cpp:429-432 | writes the cached power-saving word to command code 0x03 |
| Veml7700.PowerOn | main/src/peripheral/veml7700.cpp:213-217 | clears only the shutdown bit, writes the whole word, returns the write's result |
| Veml7700.ShutDown | main/src/peripheral/veml7700.cpp:219-223 | sets only the shutdown bit, writes the whole word, returns the write's result |
| Veml7700.IsRunning | main/src/peripheral/veml7700.cpp:225-237 | reports running iff the shutdown bit is clear; read_register behaviour and the null-pointer case as for every getter |
| Veml7700.SetEnableInterrupt | main/src/peripheral/veml7700.cpp:239-246 | sets bit 1 to the flag and nothing else, then writes |
| Veml7700.IsInterruptEnabled | main/src/peripheral/veml7700.cpp:248-260 | as written: reports the negation of bit 1 |
| Veml7700.IsInterruptEnabledCorrected | main/src/peripheral/veml7700.cpp:248-260 | as intended: reports bit 1 |
| Veml7700.SetPersistence | main/src/peripheral/veml7700.cpp:262-271 | a code below 4 replaces only the persistence field and is written; 4 or more clears the field in the cache, sends nothing and fails |
| Veml7700.GetPersistence | main/src/peripheral/veml7700.cpp:273-285 | reports the persistence field; a failed re-read fails and leaves cache and output; a null output still succeeds |
| Veml7700.SetIntegrationTime | main/src/peripheral/veml7700.cpp:287-292 | no range check: a code below 16 replaces only its field; any code is written |
| Veml7700.GetIntegrationTime | main/src/peripheral/veml7700.cpp:294-306 | reports the integration-time field, with the same read_register behaviour |
| Veml7700.SetGain | main/src/peripheral/veml7700.cpp:308-317 | like set_als_persistence for the gain field |
| Veml7700.GetGain | main/src/peripheral/veml7700.cpp:319-331 | reports the gain field, with the same read_register behaviour |
| Veml7700.SetEnablePowerSaving | main/src/peripheral/veml7700.cpp:333-340 | sets bit 0 of the power-saving word to the flag and nothing else, then writes |
| Veml7700.IsPowerSavingEnabled | main/src/peripheral/veml7700.cpp:342-354 | reports bit 0 of the power-saving word |
| Veml7700.SetPowerSavingMode | main/src/peripheral/veml7700.cpp:356-361 | no range check: a mode below 4 replaces only its field; any mode is written |
| Veml7700.GetPowerSavingMode | main/src/peripheral/veml7700.cpp:363-375 | reports the power-saving mode field |
| Veml7700.ReadAlsData | main/src/peripheral/veml7700.cpp:463-468 | as written: one read of command code 0x04 into the caller's cell, returning the NEGATION of the read's success |
| Veml7700.ReadAlsDataCorrected | main/src/peripheral/veml7700.cpp:463-468 | as intended: the same transaction and cell, returning the read's success |
| Veml7700.SeedCaches | main/src/peripheral/veml7700.cpp:77-78 | two reads, of register 0x00 and then register 0x03; each cache takes its register's value, or keeps its old value when the read fails |
| Veml7700.StopAndQuiet | main/src/peripheral/veml7700.cpp:81-83 | shutdown, interrupt off and persistence 1 sample are three writes to register 0x00, the first carrying the word with bit 0 set |
| Veml7700.SetRange | main/src/peripheral/veml7700.cpp:84-85 | gain 1/8 and 100 ms are two writes to register 0x00 that set those two fields |
| Veml7700.Resume | main/src/peripheral/veml7700.cpp:86-87 | power-saving mode 1 and power on are a write of the new power-saving word to register 0x03, then a write of the new configuration word to register 0x00 |
| Veml7700.SetterSequence | main/src/peripheral/veml7700.cpp:81-87 | the seven setters in order: five writes to register 0x00, one to register 0x03, one to register 0x00, each acknowledged iff its reply is, ending with the final words |
| Veml7700.ConfigureChip | main/src/peripheral/veml7700.cpp:81-87 | the seven setters leave `(c & 0xE40C)` with bit 12 set (0x1000) and `p & 0xFFF9`, whatever the writes return; the seven new transactions are writes, to registers 0x00 (five), 0x03, 0x00, carrying first `c` with bit 0 set and last the two final words |
| Veml7700.SeedAndConfigure | main/src/peripheral/veml7700.cpp:76-90 | after the device-ID read: the two seeding reads, then the seven writes, leaving the start-up words computed from the seeded caches, and success |
| Veml7700.Initialize | main/src/peripheral/veml7700.cpp:65-91 | fails iff the device-ID read fails, and then touches neither cache; otherwise the trace is three reads, each taking its own reply (device ID 0x07, configuration 0x00, power saving 0x03), then the seven writes of the setter sequence, and it succeeds |
| AutoRange.RealGain | main/src/peripheral/veml7700.cpp:169-192 | the four gain codes map to positive multipliers; any other code maps to -1 |
| AutoRange.RealIntegrationTime | main/src/peripheral/veml7700.cpp:138-167 | the six integration codes map to positive durations; any other code maps to -1 |
| AutoRange.GainTableAscending | main/src/peripheral/veml7700.cpp:102 | the gain table is ordered by increasing gain |
| AutoRange.IntegrationTableAscending | main/src/peripheral/veml7700.cpp:103 | the integration table is ordered by increasing duration |
| AutoRange.Resolution | main/src/peripheral/veml7700.cpp:204 | for every pair of table codes the lux per count is positive |
| AutoRange.ResolutionFallsWithGain | main/src/peripheral/veml7700.cpp:204 | a gain further along the table gives a strictly smaller lux per count |
| AutoRange.ResolutionFallsWithIntegration | main/src/peripheral/veml7700.cpp:204 | an integration time further along the table gives a strictly smaller lux per count |
| AutoRange.Lux | main/src/peripheral/veml7700.cpp:194-211 | without correction, the lux value is positive iff the raw count is |
| AutoRange.ConversionExample | main/src/peripheral/veml7700.cpp:204-205 | 100 counts at 100 ms and gain 1/8 convert to 46.08 lux |
| AutoRange.GainStep | main/src/peripheral/veml7700.cpp:117-121 | a gain step sets the gain field, keeps integration time and the other bits, and with a bus adds exactly two transactions: the write of the new configuration word to register 0x00, acknowledged iff its reply is, then the read of register 0x04 whose answer (or, if refused, the old cell) is the new sample |
| AutoRange.IntegrationStep | main/src/peripheral/veml7700.cpp:119-121 | an integration step sets the integration field, keeps the gain and the other bits, and with a bus adds exactly two transactions: the write of the new configuration word to register 0x00, acknowledged iff its reply is, then the read of register 0x04 whose answer (or, if refused, the old cell) is the new sample |
| AutoRange.ReadsRefusedCellStays | main/src/peripheral/veml7700.cpp:112-128 | when every resample read is refused the sample cell keeps its first value through any number of resamples |
| AutoRange.ResampledAdvances | main/src/peripheral/veml7700.cpp:115-128 | one more search step (a configuration write, then an ALS read) keeps the earlier transactions and the earlier steps |
| AutoRange.TracedAdvances | main/src/peripheral/veml7700.cpp:115-128 | a search step extends the trace of the search by one step whose write carries the new cached configuration word |
| AutoRange.DimTrailAdvances | main/src/peripheral/veml7700.cpp:115-121 | a dim resample taken while the cell is still at most 100 moves the cell to the new reply and passes over no answer above 100 |
| AutoRange.BrightTrailAdvances | main/src/peripheral/veml7700.cpp:125-128 | a bright resample taken while the cell is still above 10000 moves the cell to the new reply and passes over no answer of at most 10000 |
| AutoRange.RaiseGain | main/src/peripheral/veml7700.cpp:116-121 | a dim round below gain 2 moves one step along the gain table, keeps the search state of the dim branch, and adds the configuration write of the new word and one ALS read to the trace |
| AutoRange.RaiseIntegration | main/src/peripheral/veml7700.cpp:118-121 | a dim round at gain 2 moves one step along the integration table, keeps the search state of the dim branch, and adds the configuration write of the new word and one ALS read to the trace |
| AutoRange.RaiseSensitivity | main/src/peripheral/veml7700.cpp:114-122 | dim branch: the gain index climbs to 3 before the integration index leaves 2; it ends with a sample above 100 or both indices at their maximum; at most 6 resamples; the final count is the last answered read (the first sample if none was answered), and every answered read before the last was at most 100, so the search stops at the first crossing; when every resample read is refused the count stays the first sample; after the earlier trace come exactly the steps, each a write to register 0x00 (acknowledged iff its reply is) and an ALS read, the last write carrying the final configuration word |
| AutoRange.ShortenOnce | main/src/peripheral/veml7700.cpp:125-128 | a bright round moves one step down the integration table, keeps the search state of the bright branch, and extends the trace by one step |
| AutoRange.ShortenIntegration | main/src/peripheral/veml7700.cpp:123-129 | bright branch: only the integration index falls, gain stays 1/8; it ends with a sample of at most 10000 or index 0; at most 2 resamples; the final count is the last answered read, and every answered read before the last was above 10000, so the search stops at the first sample of at most 10000; after the earlier trace come exactly the steps, each a write to register 0x00 and an ALS read, the last write carrying the final configuration word |
| AutoRange.TableCodesMapped | main/src/peripheral/veml7700.cpp:138-192 | every table entry is a code both lookups map |
| AutoRange.CachedCodes | main/src/peripheral/veml7700.cpp:198-199 | the conversion's getters report the table codes of the final indices |
| AutoRange.FirstStep | main/src/peripheral/veml7700.cpp:110-112 | the start of the search sets gain 1/8 and 100 ms with two configuration writes, keeps the other bits, and takes the first sample with one ALS read into a cell that starts at 0 |
| AutoRange.Range | main/src/peripheral/veml7700.cpp:106-129 | the trace is the old trace, the gain write, the integration write and the first read, then exactly the search steps (configuration write, ALS read), the last write carrying the final word; when the first read and every resample read are refused it ends at gain 2 and 800 ms with count 0; correction iff the first sample exceeds 100; the exit conditions of both branches; each branch stops at the first sample that crosses its threshold; the count is the last answered read; only gain and integration time change; the trace length; with no bus or every transaction refused it ends at gain 2 and 800 ms with count 0 |
| AutoRange.ReadMeasurement | main/src/peripheral/veml7700.cpp:99-136 | always succeeds; the trace is the old trace, the gain write, the integration write and the first read, then exactly the search steps, the last write carrying the final word; when every read is refused it ends at gain 2 and 800 ms with count 0; correction iff the first sample exceeds 100; the exit conditions of both branches; each branch stops at the first sample that crosses its threshold; the count is the last answered read (the first sample if none was answered); only gain and integration time change; the trace length; with no bus or every transaction refused it ends at gain 2 and 800 ms with count 0; the converted codes are the table entries at the final indices |
| DriverProperties.Apply | main/src/peripheral/veml7700.cpp:213-361 | a refused setter sends nothing and fails |
| DriverProperties.SetterSendsCache | main/src/peripheral/veml7700.cpp:213-361 | a setter that is not refused sends its register's new cached word in one write and reports the acknowledgement |
| DriverProperties.SetterFrame | main/src/peripheral/veml7700.cpp:213-361 | a setter leaves the other register's cache alone |
| DriverProperties.CacheIgnoresBus | main/src/peripheral/veml7700.cpp:213-361 | the cache a setter leaves does not depend on the bus's answer |
| DriverProperties.NoBusNoTraffic | main/src/peripheral/veml7700.cpp:379-381 | with no controller every setter fails and sends nothing |
| DriverProperties.SetterReportsAck | main/src/peripheral/veml7700.cpp:396-412 | a setter that is not refused returns exactly the write's acknowledgement |
| DriverProperties.GainRoundTrip | main/src/peripheral/veml7700.cpp:308-331 | get_gain returns the code set_gain just accepted |
| DriverProperties.PersistenceRoundTrip | main/src/peripheral/veml7700.cpp:262-285 | get_als_persistence returns the code just accepted |
| DriverProperties.RefusedPersistenceClearsField | main/src/peripheral/veml7700.cpp:262-268 | a refused persistence code sends nothing, fails, and leaves persistence 0 in the cache |
| DriverProperties.RefusedGainClearsField | main/src/peripheral/veml7700.cpp:308-314 | a refused gain code sends nothing, fails, and leaves gain code 0 in the cache |
| DriverProperties.IntegrationTimeRoundTrip | main/src/peripheral/veml7700.cpp:287-306 | get_als_integration_time returns any 4-bit code just set |
| DriverProperties.WideIntegrationTimeChangesGain | main/src/peripheral/veml7700.cpp:287-292 | integration code 0x20 changes the cached gain from 0 to 1 |
| DriverProperties.PowerSavingModeRoundTrip | main/src/peripheral/veml7700.cpp:356-375 | get_power_saving_mode returns any 2-bit mode just set |
| DriverProperties.PowerSavingRoundTrip | main/src/peripheral/veml7700.cpp:333-354 | is_power_saving_enabled returns the flag just set |
| DriverProperties.RunningRoundTrip | main/src/peripheral/veml7700.cpp:213-237 | is_running reports true after power_on and false after shutdown |
| DriverProperties.InterruptRoundTrip | main/src/peripheral/veml7700.cpp:239-260 | the corrected getter reports the flag set_enable_interrupt wrote |
| DriverProperties.InterruptReportInverted | main/src/peripheral/veml7700.cpp:239-260 | as written, is_interrupt_enabled reports the opposite of the flag just written |
| DriverProperties.RefreshedGainReportsChip | main/src/peripheral/veml7700.cpp:319-331 | a successful re-read reports the chip's field, whatever the cache held |
| DriverProperties.FailedRefreshKeepsCache | main/src/peripheral/veml7700.cpp:321-323 | a failed re-read fails and leaves cache and output untouched |
| DriverProperties.ResetGainKeepsCache | main/src/peripheral/veml7700.cpp:308-331 | setting the gain code get_gain would report leaves the cached word unchanged |
| DriverProperties.ResetPersistenceKeepsCache | main/src/peripheral/veml7700.cpp:262-285 | setting the persistence code get_als_persistence would report leaves the cached word unchanged |
| DriverProperties.ConstructedIsInert | main/src/peripheral/veml7700.cpp:45-50 | before initialize the driver has no controller, so every setter fails and sends nothing |
| DriverProperties.InitializeConstructed | main/src/peripheral/veml7700.cpp:45-91 | when only the device-ID read is answered, initialize programs the constructor's zero caches into configuration 0x1000 and power saving 0 |
| DriverProperties.InitializedSettings | main/src/peripheral/veml7700.cpp:65-91 | after a successful initialize the getters report: running, interrupt off, persistence 0, gain 1/8, 100 ms, power-saving mode 1, and the seeded enable bit |
| DriverProperties.InitializeWithoutBus | main/src/peripheral/veml7700.cpp:65-74 | with no controller initialize fails before seeding, sends nothing and keeps both caches |
| DriverProperties.AlsStatusInverted | main/src/peripheral/veml7700.cpp:463-468 | as written, an answered ALS read reports failure and an unanswered one reports success; the corrected read reports the reverse |
| LightSensor.Construct | main/src/device/lightsensor.cpp:6-9 | the echo flag starts false, nothing has been published, and both values are arbitrary |
| LightSensor.Publish | main/src/device/lightsensor.cpp:100-110 | appends one request for the MeasuredValue attribute of the Illuminance Measurement cluster carrying the current value; the flag is whatever the shared routine leaves |
| LightSensor.Update | main/src/device/lightsensor.cpp:90-98 | current and prev both become t(v); publishes, unforced, only when t(v) differs from the old prev, and then the flag is what the shared routine makes of that request; otherwise the flag is untouched |
| LightSensor.OnChange | main/src/device/lightsensor.cpp:74-83 | clears the flag for MeasuredValue of Illuminance Measurement, leaves it for any other ids, and changes nothing else |
| LightSensor.UpdateAll | main/src/device/lightsensor.cpp:85-88 | re-publishes the stored value, unforced, without touching current or prev; the flag is what the shared routine makes of that request |
| LightSensor.UpdatePublishesIffChanged | main/src/device/lightsensor.cpp:93-96 | an update publishes exactly one request iff t(v) differs from the old prev, and none otherwise |
| LightSensor.RepeatedUpdateIsSilent | main/src/device/lightsensor.cpp:90-98 | a second update with the same reading publishes nothing and changes nothing |
| LightSensor.FirstUpdateDependsOnPrev | main/src/device/lightsensor.cpp:6-9 | whether the first update publishes depends on the uninitialised prev |
| LightSensor.OnChangeIdempotent | main/src/device/lightsensor.cpp:74-83 | handling a change report twice is the same as handling it once |
| LightSensor.UpdateAllKeepsDedup | main/src/device/lightsensor.cpp:85-98 | a re-publish does not disturb deduplication of the same reading |
| LightSensor.RunPublishesUnforced | main/src/device/lightsensor.cpp:74-110 | over any sequence of events, every request is an unforced MeasuredValue request and requests are only ever appended |
| LightSensor.MeasurementsNeverRepeat | main/src/device/lightsensor.cpp:90-98 | over measurements alone, no two consecutive published values are equal |
| LightSensor.ConstructedSettled | main/src/device/lightsensor.cpp:6-9 | a freshly constructed sensor meets the precondition of the no-repeat property |

## Left out

- The I2C controller (`CI2CMaster`) is an oracle of answers. The device-ID and white-channel reads and the threshold-window reads and writes are pass-throughs to it and are not modelled, except the device-ID read inside `initialize`.
- `wait_for_read_measurement` and its `vTaskDelay` are RTOS timing. It reads the cached integration time without touching the bus, so leaving it out changes no state.
- Floating point: `convert_raw_to_lux` is computed over the reals (`AutoRange.Lux`). The lookup tables are exact.
- AutoRange.Lux: states only the sign of the uncorrected result, because the single-precision rounding of the source is not modelled.
- AutoRange.ReadMeasurement: the configuration words carried by the search-step writes before the last are not stated; their register, acknowledgement and position are, and so are the words of the first two writes and of the last. It always returns the converted codes; in the source a null result pointer only skips the bus-free conversion.
- AutoRange.Range: the same as for ReadMeasurement; the words of the search-step writes before the last are not stated.
- AutoRange.RaiseSensitivity: the same; the words of the search-step writes before the last are not stated.
- AutoRange.ShortenIntegration: the same; the words of the search-step writes before the last are not stated.
- Veml7700.Initialize: the values carried by the second to fifth writes of the setter sequence are intermediate words and are not stated. The register, acknowledgement and position of every transaction are stated, and so are the values of the first, sixth and seventh writes.
- Veml7700.ConfigureChip: the same as for Initialize; the values of the second to fifth writes are not stated.
- Veml7700.SetterSequence: the same; the values of the second to fifth writes are not stated.
- The `10000 * log10(v) + 1` transform of `update_measured_value_illuminance` is the parameter `t`. It involves floating point and is undefined at 0.
- `matter_update_cluster_attribute_common` is not part of this model. Its effect on the echo flag is the parameter `effect`, and its handling of `force_update` is not modelled.
- The Matter glue is not modelled: `matter_init_endpoint`, `matter_config_attributes`, `set_min_measured_value`, `set_max_measured_value`, and the cluster and attribute lookups.
- Also left out: logging, the singleton `Instance()`, `release()` (which calls `shutdown`), and the sibling class `CIlluminanceSensor` declared in main/include/device/illuminationsensor.h, which has no implementation.
- Veml7700.SeedCaches: requires a bus, because `initialize` only reaches the seeding reads after the device-ID read has succeeded.
- Veml7700.SeedAndConfigure: requires a bus and a trace that ends in an answered device-ID read, because `initialize` continues only then.

## Findings

| source | as written | input that shows it | evidently intended | confidence | as-written member | corrected member |
|---|---|---|---|---|---|---|
| main/src/peripheral/veml7700.cpp:256 | `*enabled = !(bool)(m_config_reg_val & 0x0002)` reports the interrupt as enabled when bit 1 is clear | `set_enable_interrupt(true)` followed by `is_interrupt_enabled(&e)` leaves `e == false` | report bit 1 itself. `set_enable_interrupt` sets bit 1 to enable; only `is_running` negates, because bit 0 means shut down | high, not executed | DriverProperties.InterruptReportInverted | DriverProperties.InterruptRoundTrip |
| main/src/peripheral/veml7700.cpp:467 | `return !read_register_common(VEML7700_ALS_DATA, value)` returns false when the read succeeds | a read the sensor answers returns false; one it does not answer returns true | return the read's own status, as `read_white_channel_output_data` does at line 474 | high, not executed | DriverProperties.AlsStatusInverted | Veml7700.ReadAlsDataCorrected |

`read_measurement` ignores the status of its ALS reads, so the second finding
does not change the auto-ranging result. The model's search calls the read
as written.

=== FILE: autorange.dfy ===
/**
 The auto-ranging measurement of the VEML7700 driver (read_measurement) and
 the lookup tables behind its raw-to-lux conversion.

 Starting from gain 1/8 and 100 ms, a dim first sample (100 counts or fewer)
 raises the gain step by step to 2, then the integration time up to 800 ms,
 resampling after each step until the sample exceeds 100 counts or both
 settings are at their maximum. A bright first sample only shortens the
 integration time, down to 25 ms, while the sample exceeds 10000 counts.
 */
module AutoRange {

  import opened Wrappers
  import opened Bus
  import opened Registers
  import opened Veml7700

  /** Gain codes from least to most sensitive: 1/8, 1/4, 1, 2. */
  const GainCodes: seq<bv8> := [0x02, 0x03, 0x00, 0x01]

  /** Integration-time codes from shortest to longest: 25, 50, 100, 200,
      400, 800 ms. */
  const IntegrationCodes: seq<bv8> := [0x0C, 0x08, 0x00, 0x01, 0x02, 0x03]

  /** A sample at or below this many counts is too dim. */
  const DimThreshold: bv16 := 100

  /** A sample above this many counts is too bright. */
  const BrightThreshold: bv16 := 10000

  /** real_gain: the multiplier of a gain code, -1 for an unknown code. */
  function RealGain(code: bv8): (g: real)
    ensures code in GainCodes ==> g > 0.0
    ensures code !in GainCodes ==> g == -1.0
  {
    if code == 0x02 then 0.125
    else if code == 0x03 then 0.25
    else if code == 0x00 then 1.0
    else if code == 0x01 then 2.0
    else -1.0
  }

  /** real_integration_time: the duration in ms of an integration-time code,
      -1 for an unknown code. */
  function RealIntegrationTime(code: bv8): (t: real)
    ensures code in IntegrationCodes ==> t > 0.0
    ensures code !in IntegrationCodes ==> t == -1.0
  {
    if code == 0x0C then 25.0
    else if code == 0x08 then 50.0
    else if code == 0x00 then 100.0
    else if code == 0x01 then 200.0
    else if code == 0x02 then 400.0
    else if code == 0x03 then 800.0
    else -1.0
  }

  /** Walking the gain table forward strictly raises the gain, through the
      four multipliers 0.125, 0.25, 1 and 2. */
  lemma GainTableAscending(i: nat, j: nat)
    requires i < j < |GainCodes|
    ensures RealGain(GainCodes[i]) < RealGain(GainCodes[j])
  {
  }

  /** Walking the integration-time table forward strictly lengthens the
      integration, from 25 ms up to 800 ms. */
  lemma IntegrationTableAscending(i: nat, j: nat)
    requires i < j < |IntegrationCodes|
    ensures RealIntegrationTime(IntegrationCodes[i]) < RealIntegrationTime(IntegrationCodes[j])
  {
  }

  /** The raw sample together with the settings the conversion uses. */
  datatype Measurement = Measurement(raw: bv16, correction: bool, gainCode: bv8, itCode: bv8)

  /** Lux per count at a given integration time and gain, as an idealised
      real number (the source computes it in single precision). */
  function Resolution(itCode: bv8, gainCode: bv8): (res: real)
    ensures itCode in IntegrationCodes && gainCode in GainCodes ==> res > 0.0
  {
    0.0036 * (800.0 / RealIntegrationTime(itCode)) * (2.0 / RealGain(gainCode))
  }

  /** A more sensitive gain gives a finer resolution: walking the gain
      table forward strictly lowers the lux per count. */
  lemma ResolutionFallsWithGain(itCode: bv8, i: nat, j: nat)
    requires itCode in IntegrationCodes && i < j < |GainCodes|
    ensures Resolution(itCode, GainCodes[j]) < Resolution(itCode, GainCodes[i])
  {
  }

  /** A longer integration time likewise gives a finer resolution. */
  lemma ResolutionFallsWithIntegration(gainCode: bv8, i: nat, j: nat)
    requires gainCode in GainCodes && i < j < |IntegrationCodes|
    ensures Resolution(IntegrationCodes[j], gainCode) < Resolution(IntegrationCodes[i], gainCode)
  {
  }

  /** convert_raw_to_lux over the reals: the raw count times the resolution,
      refined by the cubic correction polynomial when `correction` is set. */
  function Lux(m: Measurement): (lux: real)
    ensures !m.correction && m.itCode in IntegrationCodes && m.gainCode in GainCodes ==>
              (lux > 0.0 <==> m.raw > 0)
  {
    var base := (m.raw as int) as real * Resolution(m.itCode, m.gainCode);
    if m.correction then
      (((0.00000000000060135 * base - 0.0000000093924) * base + 0.000081488) * base + 1.0023) * base
    else base
  }

  /** 100 counts at 100 ms and gain 1/8, uncorrected, are 46.08 lux:
      resolution 0.0036 * 8 * 16 = 0.4608. */
  lemma ConversionExample()
    ensures Lux(Measurement(100, false, 0x02, 0x00)) == 46.08
  {
  }

  /** The first sample read_measurement takes: the third transaction, after
      the two setter writes, read into a cell that starts at 0. */
  function FirstSample(d: Driver, o: Oracle): bv16
  {
    if d.hasBus then ReadOr(o(|d.trace| + 2), 0) else 0
  }

  /** The number of resamples after the first sample that leave the search
      at the given table indices. */
  function Resamples(correction: bool, gainIdx: nat, integIdx: nat): int
  {
    if correction then 2 - integIdx else gainIdx + integIdx - 2
  }

  /** The codes in the cache are the table entries at the given positions. */
  ghost predicate Settings(drv: Driver, gainIdx: nat, integIdx: nat)
  {
    gainIdx < |GainCodes| && integIdx < |IntegrationCodes|
    && Get(drv.config, Gain) == GainCodes[gainIdx] as bv16
    && Get(drv.config, IntegrationTime) == IntegrationCodes[integIdx] as bv16
  }

  /** With a bus, the newest transaction is a read of the ALS output
      register, and when the sensor answered it `als` holds the decoded
      answer. */
  ghost predicate LastSample(drv: Driver, als: bv16, o: Oracle)
  {
    drv.hasBus ==>
      |drv.trace| > 0
      && drv.trace[|drv.trace| - 1] == WriteRead(DeviceAddress, AlsDataCode, o(|drv.trace| - 1))
      && (o(|drv.trace| - 1).Ack? ==> als == Decode(o(|drv.trace| - 1).lo, o(|drv.trace| - 1).hi))
  }

  /** A bus on which every transaction fails. */
  ghost predicate Silent(o: Oracle)
  {
    forall k: nat :: o(k).Nak?
  }

  /** The reply to the read of the `j`-th resample (counting from 0) of a
      search whose first sample is the newest of `n` transactions: every
      resample is one setter write followed by one read. */
  function ResampleReply(o: Oracle, n: nat, j: nat): Reply
  {
    o(n + 2 * j + 1)
  }

  /** The two transactions of one search step numbered from `n`: the write
      of the new configuration word `config` to register 0x00, then the
      read of the ALS output register. */
  function StepTxns(config: bv16, n: nat, o: Oracle): seq<Txn>
  {
    [Write(DeviceAddress, ConfigCode, config, o(n).Ack?), WriteRead(DeviceAddress, AlsDataCode, o(n + 1))]
  }

  /** `t` holds `k` search steps after its first `n` transactions: each a
      write to the configuration register, acknowledged iff its reply is,
      followed by a read of the ALS output register that takes its own
      reply. */
  ghost predicate Resampled(t: seq<Txn>, n: nat, k: nat, o: Oracle)
  {
    |t| == n + 2 * k
    && forall j: nat :: j < k ==> StepAt(t, n, j, o)
  }

  /** The `j`-th step after the first `n` transactions of `t` is a write to
      the configuration register, acknowledged iff its reply is, followed
      by a read of the ALS output register with its own reply. */
  ghost predicate StepAt(t: seq<Txn>, n: nat, j: nat, o: Oracle)
  {
    n + 2 * j + 1 < |t|
    && t[n + 2 * j].Write? && t[n + 2 * j].addr == DeviceAddress && t[n + 2 * j].code == ConfigCode
    && t[n + 2 * j].acked == o(n + 2 * j).Ack?
    && t[n + 2 * j + 1] == WriteRead(DeviceAddress, AlsDataCode, o(n + 2 * j + 1))
  }

  /** The write before the newest transaction carried the configuration
      word the cache holds now. */
  ghost predicate LastWrite(drv: Driver, o: Oracle)
  {
    |drv.trace| >= 2
    && drv.trace[|drv.trace| - 2] == Write(DeviceAddress, ConfigCode, drv.config, o(|drv.trace| - 2).Ack?)
  }

  /** With a bus, `drv` is `start` followed by `k` search steps, the last
      of which (if any) wrote the configuration word `drv` caches. */
  ghost predicate Traced(start: Driver, drv: Driver, k: nat, o: Oracle)
  {
    start.hasBus ==>
      && Resampled(drv.trace, |start.trace|, k, o)
      && drv.trace[..|start.trace|] == start.trace
      && (k > 0 ==> LastWrite(drv, o))
  }

  /** One more step keeps the earlier transactions and the earlier steps. */
  lemma ResampledAdvances(t: seq<Txn>, n: nat, k: nat, config: bv16, o: Oracle)
    requires Resampled(t, n, k, o)
    ensures Resampled(t + StepTxns(config, |t|, o), n, k + 1, o)
    ensures (t + StepTxns(config, |t|, o))[..n] == t[..n]
  {
    var u := t + StepTxns(config, |t|, o);
    forall j: nat | j < k + 1
      ensures StepAt(u, n, j, o)
    {
      if j < k {
        assert StepAt(t, n, j, o);
        assert u[n + 2 * j] == t[n + 2 * j] && u[n + 2 * j + 1] == t[n + 2 * j + 1];
      }
    }
  }

  /** A search step extends the trace of the search by one step. */
  lemma TracedAdvances(start: Driver, prev: Driver, next: Driver, k: nat, o: Oracle)
    requires Traced(start, prev, k, o)
    requires start.hasBus ==> next.trace == prev.trace + StepTxns(next.config, |prev.trace|, o)
    ensures Traced(start, next, k + 1, o)
  {
    if start.hasBus {
      ResampledAdvances(prev.trace, |start.trace|, k, next.config, o);
    }
  }

  /** The sample cell after `k` resamples of a search that started from
      `first`: an answered read overwrites it, a refused one leaves it as
      it was. */
  ghost function Cell(first: bv16, n: nat, k: nat, o: Oracle): bv16
  {
    if k == 0 then first else ReadOr(ResampleReply(o, n, k - 1), Cell(first, n, k - 1, o))
  }

  /** Every answered read among the first `k` resamples was dim: the dim
      search did not pass over a sample above the threshold. */
  ghost predicate DimBefore(n: nat, k: int, o: Oracle)
  {
    forall j: nat :: j < k ==>
      (ResampleReply(o, n, j).Ack? ==> Decode(ResampleReply(o, n, j).lo, ResampleReply(o, n, j).hi) <= DimThreshold)
  }

  /** Every answered read among the first `k` resamples was bright: the
      bright search did not pass over a sample at or below the threshold. */
  ghost predicate BrightBefore(n: nat, k: int, o: Oracle)
  {
    forall j: nat :: j < k ==>
      (ResampleReply(o, n, j).Ack? ==> Decode(ResampleReply(o, n, j).lo, ResampleReply(o, n, j).hi) > BrightThreshold)
  }

  /** The first `k` resample reads were all refused. */
  ghost predicate ReadsRefused(n: nat, k: nat, o: Oracle)
  {
    forall j: nat :: j < k ==> ResampleReply(o, n, j).Nak?
  }

  /** When every resample read is refused the cell never changes. */
  lemma {:induction false} ReadsRefusedCellStays(first: bv16, n: nat, k: nat, o: Oracle)
    requires ReadsRefused(n, k, o)
    ensures Cell(first, n, k, o) == first
  {
    if k > 0 {
      ReadsRefusedCellStays(first, n, k - 1, o);
    }
  }

  /** After `k` resamples of the dim search from `first`, `als` is the
      sample cell and no answered read before the newest was above the
      dim threshold. */
  ghost predicate DimTrail(first: bv16, n: nat, k: nat, als: bv16, o: Oracle)
  {
    als == Cell(first, n, k, o) && DimBefore(n, k - 1, o)
  }

  /** After `k` resamples of the bright search from `first`, `als` is the
      sample cell and no answered read before the newest was at or below
      the bright threshold. */
  ghost predicate BrightTrail(first: bv16, n: nat, k: nat, als: bv16, o: Oracle)
  {
    als == Cell(first, n, k, o) && BrightBefore(n, k - 1, o)
  }

  /** A dim search that resamples while its cell is still dim keeps its
      trail. */
  lemma DimTrailAdvances(first: bv16, prev: Driver, als: bv16, n: nat, k: nat, o: Oracle)
    requires prev.hasBus && |prev.trace| == n + 2 * k
    requires LastSample(prev, als, o) && als <= DimThreshold
    requires DimTrail(first, n, k, als, o)
    ensures DimTrail(first, n, k + 1, ReadOr(o(|prev.trace| + 1), als), o)
  {
  }

  /** A bright search that resamples while its cell is still bright keeps
      its trail. */
  lemma BrightTrailAdvances(first: bv16, prev: Driver, als: bv16, n: nat, k: nat, o: Oracle)
    requires prev.hasBus && |prev.trace| == n + 2 * k
    requires LastSample(prev, als, o) && als > BrightThreshold
    requires BrightTrail(first, n, k, als, o)
    ensures BrightTrail(first, n, k + 1, ReadOr(o(|prev.trace| + 1), als), o)
  {
  }

  /** One step of the search that changes the gain: write the new gain code,
      then take a fresh sample into the cell `als`. */
  function GainStep(d: Driver, code: bv8, als: bv16, o: Oracle): (r: Sample)
    requires code < 4
    ensures Get(r.drv.config, Gain) == code as bv16
    ensures Get(r.drv.config, IntegrationTime) == Get(d.config, IntegrationTime)
    ensures Outer(r.drv.config) == Outer(d.config)
    ensures r.drv.powerSave == d.powerSave && r.drv.hasBus == d.hasBus
    ensures r.drv.trace == d.trace + (if d.hasBus then StepTxns(r.drv.config, |d.trace|, o) else [])
    ensures r.value == if d.hasBus then ReadOr(o(|d.trace| + 1), als) else als
    ensures LastSample(r.drv, r.value, o)
  {
    var s := SetGain(d, code, o);
    GainChangeKeepsOuterBits(s.drv.config, d.config);
    GainChangeKeepsIntegrationTime(s.drv.config, d.config);
    ReadAlsData(s.drv, als, o)
  }

  /** One step of the search that changes the integration time: write the
      new code, then take a fresh sample into `als`. */
  function IntegrationStep(d: Driver, code: bv8, als: bv16, o: Oracle): (r: Sample)
    requires code < 16
    ensures Get(r.drv.config, IntegrationTime) == code as bv16
    ensures Get(r.drv.config, Gain) == Get(d.config, Gain)
    ensures Outer(r.drv.config) == Outer(d.config)
    ensures r.drv.powerSave == d.powerSave && r.drv.hasBus == d.hasBus
    ensures r.drv.trace == d.trace + (if d.hasBus then StepTxns(r.drv.config, |d.trace|, o) else [])
    ensures r.value == if d.hasBus then ReadOr(o(|d.trace| + 1), als) else als
    ensures LastSample(r.drv, r.value, o)
  {
    var s := SetIntegrationTime(d, code, o);
    IntegrationChangeKeepsOuterBits(s.drv.config, d.config);
    IntegrationChangeKeepsGain(s.drv.config, d.config);
    ReadAlsData(s.drv, als, o)
  }

  /** The state of the dim search: the driver, the sample cell and the
      positions in the two tables. */
  datatype Search = Search(drv: Driver, als: bv16, gainIdx: nat, integIdx: nat)

  /** The dim search from `start` and its first sample `first` has reached
      `s`: the gain is raised fully before the integration time moves, the
      cache holds the table codes, only the two settings changed, each step
      added one write and one read, and the cell follows the answered reads
      with no answer above the dim threshold passed over. */
  ghost predicate Raising(start: Driver, first: bv16, s: Search, o: Oracle)
  {
    s.gainIdx <= 3 && 2 <= s.integIdx <= 5 && (s.gainIdx < 3 ==> s.integIdx == 2)
    && Settings(s.drv, s.gainIdx, s.integIdx)
    && Outer(s.drv.config) == Outer(start.config)
    && s.drv.powerSave == start.powerSave && s.drv.hasBus == start.hasBus
    && |s.drv.trace| == |start.trace| + (if start.hasBus then 2 * (s.gainIdx + s.integIdx - 2) else 0)
    && LastSample(s.drv, s.als, o)
    && (!start.hasBus ==> s.als == first)
    && (start.hasBus ==> DimTrail(first, |start.trace|, s.gainIdx + s.integIdx - 2, s.als, o))
  }

  /** A round of the dim loop below gain 2: raise the gain one table step,
      then resample. */
  function RaiseGain(start: Driver, first: bv16, s: Search, o: Oracle): (r: Search)
    requires Raising(start, first, s, o)
    requires s.als <= DimThreshold && s.gainIdx < 3
    ensures Raising(start, first, r, o)
    ensures start.hasBus ==> r.drv.trace == s.drv.trace + StepTxns(r.drv.config, |s.drv.trace|, o)
    ensures r.gainIdx == s.gainIdx + 1 && r.integIdx == s.integIdx
  {
    var smp := GainStep(s.drv, GainCodes[s.gainIdx + 1], s.als, o);
    var r := Search(smp.drv, smp.value, s.gainIdx + 1, s.integIdx);
    if start.hasBus then
      DimTrailAdvances(first, s.drv, s.als, |start.trace|, s.gainIdx + s.integIdx - 2, o);
      r
    else r
  }

  /** A round of the dim loop at gain 2: lengthen the integration time one
      table step, then resample. */
  function RaiseIntegration(start: Driver, first: bv16, s: Search, o: Oracle): (r: Search)
    requires Raising(start, first, s, o)
    requires s.als <= DimThreshold && s.gainIdx == 3 && s.integIdx < 5
    ensures Raising(start, first, r, o)
    ensures start.hasBus ==> r.drv.trace == s.drv.trace + StepTxns(r.drv.config, |s.drv.trace|, o)
    ensures r.gainIdx == s.gainIdx && r.integIdx == s.integIdx + 1
  {
    var smp := IntegrationStep(s.drv, IntegrationCodes[s.integIdx + 1], s.als, o);
    var r := Search(smp.drv, smp.value, s.gainIdx, s.integIdx + 1);
    if start.hasBus then
      DimTrailAdvances(first, s.drv, s.als, |start.trace|, s.gainIdx + s.integIdx - 2, o);
      r
    else r
  }

  /** The loop of the dim branch, stated over the search state. */
  method RaiseLoop(start: Driver, first: bv16, o: Oracle) returns (s: Search)
    requires Settings(start, 0, 2)
    requires LastSample(start, first, o)
    ensures Raising(start, first, s, o)
    ensures Traced(start, s.drv, s.gainIdx + s.integIdx - 2, o)
    ensures s.als > DimThreshold || (s.gainIdx == 3 && s.integIdx == 5)
    ensures first > DimThreshold ==> s == Search(start, first, 0, 2)
  {
    s := Search(start, first, 0, 2);
    while s.als <= DimThreshold && !(s.gainIdx == 3 && s.integIdx == 5)
      invariant Raising(start, first, s, o)
      invariant Traced(start, s.drv, s.gainIdx + s.integIdx - 2, o)
      invariant first > DimThreshold ==> s == Search(start, first, 0, 2)
      decreases 8 - s.gainIdx - s.integIdx
    {
      var next := if s.gainIdx < 3 then RaiseGain(start, first, s, o) else RaiseIntegration(start, first, s, o);
      TracedAdvances(start, s.drv, next.drv, s.gainIdx + s.integIdx - 2, o);
      s := next;
    }
  }

  /** The dim branch of read_measurement: from gain 1/8 and 100 ms, raise
      the gain one table step at a time up to 2, then the integration time
      up to 800 ms, resampling after each step, until the sample exceeds
      the dim threshold or both settings are at their maximum. */
  method RaiseSensitivity(start: Driver, first: bv16, o: Oracle)
    returns (drv: Driver, als: bv16, gainIdx: nat, integIdx: nat)
    requires Settings(start, 0, 2)
    requires LastSample(start, first, o)
    ensures gainIdx <= 3 && 2 <= integIdx <= 5 && (gainIdx < 3 ==> integIdx == 2)
    ensures Settings(drv, gainIdx, integIdx)
    ensures als > DimThreshold || (gainIdx == 3 && integIdx == 5)
    ensures first > DimThreshold ==> drv == start && als == first && gainIdx == 0 && integIdx == 2
    ensures Outer(drv.config) == Outer(start.config)
    ensures drv.powerSave == start.powerSave && drv.hasBus == start.hasBus
    ensures |drv.trace| == |start.trace| + (if start.hasBus then 2 * (gainIdx + integIdx - 2) else 0)
    ensures LastSample(drv, als, o)
    ensures !start.hasBus || Silent(o) ==> als == first
    ensures start.hasBus && ReadsRefused(|start.trace|, gainIdx + integIdx - 2, o) ==> als == first
    ensures start.hasBus ==> DimTrail(first, |start.trace|, gainIdx + integIdx - 2, als, o)
    ensures Traced(start, drv, gainIdx + integIdx - 2, o)
  {
    var s := RaiseLoop(start, first, o);
    drv, als, gainIdx, integIdx := s.drv, s.als, s.gainIdx, s.integIdx;
    if start.hasBus && (Silent(o) || ReadsRefused(|start.trace|, gainIdx + integIdx - 2, o)) {
      ReadsRefusedCellStays(first, |start.trace|, gainIdx + integIdx - 2, o);
    }
  }

  /** The bright search from `start` and its first sample `first` has
      reached `s`: the gain stays at 1/8, the cache holds the table codes,
      only the integration time changed, each step added one write and one
      read, and the cell follows the answered reads with no answer at or
      below the bright threshold passed over. */
  ghost predicate Shortening(start: Driver, first: bv16, s: Search, o: Oracle)
  {
    s.gainIdx == 0 && s.integIdx <= 2
    && Settings(s.drv, 0, s.integIdx)
    && Outer(s.drv.config) == Outer(start.config)
    && s.drv.powerSave == start.powerSave && s.drv.hasBus == start.hasBus
    && |s.drv.trace| == |start.trace| + (if start.hasBus then 2 * (2 - s.integIdx) else 0)
    && LastSample(s.drv, s.als, o)
    && (start.hasBus ==> BrightTrail(first, |start.trace|, 2 - s.integIdx, s.als, o))
  }

  /** A round of the bright loop: shorten the integration time one table
      step, then resample. */
  function ShortenOnce(start: Driver, first: bv16, s: Search, o: Oracle): (r: Search)
    requires Shortening(start, first, s, o)
    requires s.als > BrightThreshold && s.integIdx > 0
    requires Traced(start, s.drv, 2 - s.integIdx, o)
    ensures Shortening(start, first, r, o)
    ensures Traced(start, r.drv, 3 - s.integIdx, o)
    ensures r.integIdx == s.integIdx - 1
  {
    var smp := IntegrationStep(s.drv, IntegrationCodes[s.integIdx - 1], s.als, o);
    var r := Search(smp.drv, smp.value, 0, s.integIdx - 1);
    TracedAdvances(start, s.drv, r.drv, 2 - s.integIdx, o);
    if start.hasBus then
      BrightTrailAdvances(first, s.drv, s.als, |start.trace|, 2 - s.integIdx, o);
      r
    else r
  }

  /** The bright branch of read_measurement: from 100 ms, shorten the
      integration time one table step at a time, resampling after each
      step, while the sample exceeds the bright threshold and a shorter
      time remains. The gain is not touched. */
  method ShortenIntegration(start: Driver, first: bv16, o: Oracle)
    returns (drv: Driver, als: bv16, integIdx: nat)
    requires Settings(start, 0, 2)
    requires LastSample(start, first, o)
    ensures integIdx <= 2
    ensures Settings(drv, 0, integIdx)
    ensures als <= BrightThreshold || integIdx == 0
    ensures first <= BrightThreshold ==> drv == start && als == first && integIdx == 2
    ensures Outer(drv.config) == Outer(start.config)
    ensures drv.powerSave == start.powerSave && drv.hasBus == start.hasBus
    ensures |drv.trace| == |start.trace| + (if start.hasBus then 2 * (2 - integIdx) else 0)
    ensures LastSample(drv, als, o)
    ensures start.hasBus ==> BrightTrail(first, |start.trace|, 2 - integIdx, als, o)
    ensures Traced(start, drv, 2 - integIdx, o)
  {
    var s := Search(start, first, 0, 2);
    while s.als > BrightThreshold && s.integIdx > 0
      invariant Shortening(start, first, s, o)
      invariant Traced(start, s.drv, 2 - s.integIdx, o)
      invariant first <= BrightThreshold ==> s == Search(start, first, 0, 2)
      decreases s.integIdx
    {
      s := ShortenOnce(start, first, s, o);
    }
    drv, als, integIdx := s.drv, s.als, s.integIdx;
  }

  /** Every table entry is a code the conversion tables map. */
  lemma TableCodesMapped(gainIdx: nat, integIdx: nat)
    requires gainIdx < |GainCodes| && integIdx < |IntegrationCodes|
    ensures RealGain(GainCodes[gainIdx]) > 0.0 && RealIntegrationTime(IntegrationCodes[integIdx]) > 0.0
  {
  }

  /** The getters, reading the cache only, report the table codes the
      cache holds. */
  lemma CachedCodes(drv: Driver, gainIdx: nat, integIdx: nat, o: Oracle)
    requires Settings(drv, gainIdx, integIdx)
    ensures GetGain(drv, Some(0), false, o).out == Some(GainCodes[gainIdx])
    ensures GetIntegrationTime(drv, Some(0), false, o).out == Some(IntegrationCodes[integIdx])
  {
  }

  /** The three transactions read_measurement starts with: the write of
      gain 1/8, the write of 100 ms, and the first read of the ALS output
      register. */
  function FirstTxns(d: Driver, o: Oracle): seq<Txn>
  {
    [Write(DeviceAddress, ConfigCode, Insert(d.config, Gain, 2), o(|d.trace|).Ack?)]
    + StepTxns(Insert(Insert(d.config, Gain, 2), IntegrationTime, 0), |d.trace| + 1, o)
  }

  /** The start of read_measurement: set gain 1/8 and 100 ms, then take the
      first sample into a cell that starts at 0. */
  function FirstStep(d: Driver, o: Oracle): (r: Sample)
    ensures Settings(r.drv, 0, 2)
    ensures Outer(r.drv.config) == Outer(d.config)
    ensures r.drv.powerSave == d.powerSave && r.drv.hasBus == d.hasBus
    ensures r.drv.trace == d.trace + (if d.hasBus then FirstTxns(d, o) else [])
    ensures r.value == FirstSample(d, o)
    ensures LastSample(r.drv, r.value, o)
  {
    var s := SetGain(d, GainCodes[0], o);
    GainChangeKeepsOuterBits(s.drv.config, d.config);
    IntegrationStep(s.drv, IntegrationCodes[2], 0, o)
  }

  /** The ranging part of read_measurement: set gain 1/8 and 100 ms, take
      a first sample, then search the dim or the bright branch depending on
      that sample. The returned indices are the final positions in the two
      tables and `raw` is the sample cell at the end. */
  method Range(d: Driver, o: Oracle)
    returns (drv: Driver, correction: bool, raw: bv16, gainIdx: nat, integIdx: nat)
    ensures correction <==> FirstSample(d, o) > DimThreshold
    ensures Settings(drv, gainIdx, integIdx)
    ensures Outer(drv.config) == Outer(d.config)
    ensures drv.powerSave == d.powerSave && drv.hasBus == d.hasBus
    ensures !correction ==> 2 <= integIdx && (gainIdx < 3 ==> integIdx == 2)
    ensures !correction ==> raw > DimThreshold || (gainIdx == 3 && integIdx == 5)
    ensures correction ==> gainIdx == 0 && integIdx <= 2
    ensures correction ==> raw <= BrightThreshold || integIdx == 0
    ensures 0 <= Resamples(correction, gainIdx, integIdx) <= (if correction then 2 else 6)
    ensures |drv.trace| == |d.trace| + (if d.hasBus then 3 + 2 * Resamples(correction, gainIdx, integIdx) else 0)
    ensures LastSample(drv, raw, o)
    ensures d.hasBus ==> raw == Cell(FirstSample(d, o), |d.trace| + 3, Resamples(correction, gainIdx, integIdx), o)
    ensures d.hasBus && !correction ==> DimBefore(|d.trace| + 3, Resamples(correction, gainIdx, integIdx) - 1, o)
    ensures d.hasBus && correction ==> BrightBefore(|d.trace| + 3, Resamples(correction, gainIdx, integIdx) - 1, o)
    ensures !d.hasBus || Silent(o) ==> raw == 0 && !correction && gainIdx == 3 && integIdx == 5
    ensures d.hasBus && o(|d.trace| + 2).Nak? && ReadsRefused(|d.trace| + 3, Resamples(correction, gainIdx, integIdx), o)
            ==> raw == 0 && !correction && gainIdx == 3 && integIdx == 5
    ensures d.hasBus ==> drv.trace[..|d.trace| + 3] == d.trace + FirstTxns(d, o)
                         && Resampled(drv.trace, |d.trace| + 3, Resamples(correction, gainIdx, integIdx), o)
    ensures d.hasBus && Resamples(correction, gainIdx, integIdx) > 0 ==> LastWrite(drv, o)
  {
    var first := FirstStep(d, o);
    assert d.hasBus ==> |first.drv.trace| == |d.trace| + 3;

    correction := first.value > DimThreshold;
    if !correction {
      drv, raw, gainIdx, integIdx := RaiseSensitivity(first.drv, first.value, o);
    } else {
      gainIdx := 0;
      drv, raw, integIdx := ShortenIntegration(first.drv, first.value, o);
    }
  }

  /** read_measurement: range, then convert. `m` holds the last sample and
      the codes the conversion reads back from the cache. The source always
      reports success. */
  method ReadMeasurement(d: Driver, o: Oracle)
    returns (drv: Driver, ok: bool, m: Measurement, gainIdx: nat, integIdx: nat)
    ensures ok
    ensures m.correction <==> FirstSample(d, o) > DimThreshold
    ensures Settings(drv, gainIdx, integIdx)
    ensures m.gainCode == GainCodes[gainIdx] && m.itCode == IntegrationCodes[integIdx]
    ensures Outer(drv.config) == Outer(d.config)
    ensures drv.powerSave == d.powerSave && drv.hasBus == d.hasBus
    ensures !m.correction ==> 2 <= integIdx && (gainIdx < 3 ==> integIdx == 2)
    ensures !m.correction ==> m.raw > DimThreshold || (gainIdx == 3 && integIdx == 5)
    ensures m.correction ==> gainIdx == 0 && integIdx <= 2
    ensures m.correction ==> m.raw <= BrightThreshold || integIdx == 0
    ensures 0 <= Resamples(m.correction, gainIdx, integIdx) <= (if m.correction then 2 else 6)
    ensures |drv.trace| == |d.trace| + (if d.hasBus then 3 + 2 * Resamples(m.correction, gainIdx, integIdx) else 0)
    ensures LastSample(drv, m.raw, o)
    ensures d.hasBus ==> m.raw == Cell(FirstSample(d, o), |d.trace| + 3, Resamples(m.correction, gainIdx, integIdx), o)
    ensures d.hasBus && !m.correction ==> DimBefore(|d.trace| + 3, Resamples(m.correction, gainIdx, integIdx) - 1, o)
    ensures d.hasBus && m.correction ==> BrightBefore(|d.trace| + 3, Resamples(m.correction, gainIdx, integIdx) - 1, o)
    ensures RealGain(m.gainCode) > 0.0 && RealIntegrationTime(m.itCode) > 0.0
    ensures !d.hasBus || Silent(o) ==> m == Measurement(0, false, 0x01, 0x03) && gainIdx == 3 && integIdx == 5
    ensures d.hasBus && o(|d.trace| + 2).Nak? && ReadsRefused(|d.trace| + 3, Resamples(m.correction, gainIdx, integIdx), o)
            ==> m == Measurement(0, false, 0x01, 0x03) && gainIdx == 3 && integIdx == 5
    ensures d.hasBus ==> drv.trace[..|d.trace| + 3] == d.trace + FirstTxns(d, o)
                         && Resampled(drv.trace, |d.trace| + 3, Resamples(m.correction, gainIdx, integIdx), o)
    ensures d.hasBus && Resamples(m.correction, gainIdx, integIdx) > 0 ==> LastWrite(drv, o)
  {
    var correction, als;
    drv, correction, als, gainIdx, integIdx := Range(d, o);

    // convert_raw_to_lux reads both codes back from the cache.
    var it := GetIntegrationTime(drv, Some(0), false, o);
    var g := GetGain(drv, Some(0), false, o);
    CachedCodes(drv, gainIdx, integIdx, o);
    TableCodesMapped(gainIdx, integIdx);
    m := Measurement(als, correction, g.out.value, it.out.value);
    ok := true;
  }

}

=== FILE: bus.dfy ===
/**
 Model of the two-wire bus as seen by the VEML7700 driver: the device
 address, the register codes, the little-endian register codec and an
 abstract transport oracle.

 The transport itself is not modelled. Every transaction the driver issues
 is answered by an oracle: the k-th transaction of a driver's life gets the
 reply `o(k)`. A plain write succeeds iff its reply is `Ack`; a combined
 write-then-read succeeds iff its reply is `Ack(lo, hi)` and then delivers
 the two data bytes, low byte first.
 */
module Bus {

  /** 7-bit bus address of the sensor. */
  const DeviceAddress: bv8 := 0x10

  /** Register command codes. The threshold-window, white-channel and
      interrupt-status codes only complete the register map: nothing in
      this model reads or writes those registers. */
  const ConfigCode: bv8 := 0x00
  const ThresholdHighCode: bv8 := 0x01
  const ThresholdLowCode: bv8 := 0x02
  const PowerSaveCode: bv8 := 0x03
  const AlsDataCode: bv8 := 0x04
  const WhiteDataCode: bv8 := 0x05
  const InterruptStatusCode: bv8 := 0x06
  const DeviceIdCode: bv8 := 0x07

  /** The transport's answer to one transaction. */
  datatype Reply = Nak | Ack(lo: bv8, hi: bv8)

  /** The transport: the reply to the k-th transaction. */
  type Oracle = nat -> Reply

  /** One bus transaction, as recorded in a driver's trace: a register
      write, or a command byte followed by a two-byte read. */
  datatype Txn =
    | Write(addr: bv8, code: bv8, value: bv16, acked: bool)
    | WriteRead(addr: bv8, code: bv8, reply: Reply)

  /** The bytes a transaction puts on the bus: a read sends only its
      command code; a write sends the code and then the value, which the
      two data bytes decode back to. */
  function Sent(t: Txn): (bytes: seq<bv8>)
    ensures |bytes| >= 1 && bytes[0] == t.code
    ensures t.WriteRead? ==> bytes == [t.code]
    ensures t.Write? ==> |bytes| == 3 && Decode(bytes[1], bytes[2]) == t.value
  {
    match t
    case Write(_, code, value, _) => Encode(code, value)
    case WriteRead(_, code, _) => [code]
  }

  /** The three bytes sent by a register write: the command code, then the
      value low byte first. Decoding the two data bytes gives the value back. */
  function Encode(code: bv8, v: bv16): (frame: seq<bv8>)
    ensures |frame| == 3 && frame[0] == code
    ensures Decode(frame[1], frame[2]) == v
  {
    [code, (v & 0xFF) as bv8, (v >> 8) as bv8]
  }

  /** The register value carried by the two bytes of a read, low byte first.
      Its low and high bytes are exactly the two bytes received. */
  function Decode(lo: bv8, hi: bv8): (v: bv16)
    ensures (v & 0xFF) as bv8 == lo
    ensures (v >> 8) as bv8 == hi
  {
    ((hi as bv16) << 8) | (lo as bv16)
  }

  /** The codec is a bijection: re-encoding a decoded pair gives the pair back. */
  lemma EncodeDecode(code: bv8, lo: bv8, hi: bv8)
    ensures Encode(code, Decode(lo, hi)) == [code, lo, hi]
  {
  }

}

=== FILE: driver_properties.dfy ===
/**
 Properties of the VEML7700 register mirror that relate several operations:
 a setting read back through its getter, the cache's independence from the
 bus outcome, the state initialize leaves, and the two inverted reports.
 */
module DriverProperties {

  import opened Wrappers
  import opened Bus
  import opened Registers
  import opened Veml7700

  /** Every setter of the driver, with its argument. */
  datatype Command =
    | On
    | Off
    | Interrupt(enable: bool)
    | PersistenceOf(code: bv8)
    | GainOf(code: bv8)
    | IntegrationTimeOf(code: bv8)
    | PowerSaving(enable: bool)
    | PowerSavingModeOf(code: bv8)

  /** The command code of the register a command writes. */
  function Target(c: Command): bv8
  {
    match c
    case PowerSaving(_) => PowerSaveCode
    case PowerSavingModeOf(_) => PowerSaveCode
    case _ => ConfigCode
  }

  /** The two range-checked setters refuse codes of 4 or more; every other
      command is always sent. */
  predicate Refused(c: Command)
  {
    (c.PersistenceOf? && c.code >= 4) || (c.GainOf? && c.code >= 4)
  }

  /** Run one setter. */
  function Apply(d: Driver, c: Command, o: Oracle): (r: Status)
    ensures r.drv.hasBus == d.hasBus
    ensures Refused(c) ==> !r.ok && r.drv.trace == d.trace
  {
    match c
    case On => PowerOn(d, o)
    case Off => ShutDown(d, o)
    case Interrupt(b) => SetEnableInterrupt(d, b, o)
    case PersistenceOf(v) => SetPersistence(d, v, o)
    case GainOf(v) => SetGain(d, v, o)
    case IntegrationTimeOf(v) => SetIntegrationTime(d, v, o)
    case PowerSaving(b) => SetEnablePowerSaving(d, b, o)
    case PowerSavingModeOf(v) => SetPowerSavingMode(d, v, o)
  }

  /** A setter that is not refused sends its register's new cached word in
      one write and reports the transport's answer. */
  lemma SetterSendsCache(d: Driver, c: Command, o: Oracle)
    requires !Refused(c)
    ensures WroteThrough(d, Apply(d, c, o), Target(c), Cache(Apply(d, c, o).drv, Target(c)), o)
  {
  }

  /** A setter leaves the cache of the register it does not target. */
  lemma SetterFrame(d: Driver, c: Command, o: Oracle)
    ensures Target(c) == ConfigCode ==> Apply(d, c, o).drv.powerSave == d.powerSave
    ensures Target(c) == PowerSaveCode ==> Apply(d, c, o).drv.config == d.config
  {
  }

  /** Each setter patches the cache before it writes, so the cache it
      leaves is the same whatever the bus answers, even with no bus. */
  lemma CacheIgnoresBus(d: Driver, c: Command, o1: Oracle, o2: Oracle)
    ensures Apply(d, c, o1).drv.config == Apply(d, c, o2).drv.config
    ensures Apply(d, c, o1).drv.powerSave == Apply(d, c, o2).drv.powerSave
  {
  }

  /** Without a bus controller every setter fails and sends nothing, yet the
      cache still changes. */
  lemma NoBusNoTraffic(d: Driver, c: Command, o: Oracle)
    requires !d.hasBus
    ensures !Apply(d, c, o).ok
    ensures Apply(d, c, o).drv.trace == d.trace
  {
  }

  /** A setter that is not refused reports exactly the transport's answer
      to its single write. */
  lemma SetterReportsAck(d: Driver, c: Command, o: Oracle)
    requires d.hasBus && !Refused(c)
    ensures Apply(d, c, o).ok <==> o(|d.trace|).Ack?
    ensures |Apply(d, c, o).drv.trace| == |d.trace| + 1
  {
  }

  // ---------------------------------------------------------------------
  // Set, then get from the cache
  // ---------------------------------------------------------------------

  /** A gain code that set_gain accepts is what get_gain reports. */
  lemma GainRoundTrip(d: Driver, code: bv8, o: Oracle)
    requires code < 4
    ensures GetGain(SetGain(d, code, o).drv, Some(0), false, o).out == Some(code)
  {
  }

  /** A persistence code that set_als_persistence accepts is what
      get_als_persistence reports. */
  lemma PersistenceRoundTrip(d: Driver, code: bv8, o: Oracle)
    requires code < 4
    ensures GetPersistence(SetPersistence(d, code, o).drv, Some(0), false, o).out == Some(code)
  {
  }

  /** A refused persistence code is not sent, yet the cached field has
      already been cleared: get_als_persistence then reports 0. */
  lemma RefusedPersistenceClearsField(d: Driver, code: bv8, o: Oracle)
    requires code >= 4
    ensures !SetPersistence(d, code, o).ok
    ensures SetPersistence(d, code, o).drv.trace == d.trace
    ensures GetPersistence(SetPersistence(d, code, o).drv, Some(code), false, o).out == Some(0)
  {
  }

  /** A refused gain code likewise leaves gain code 0 (gain 1) in the cache. */
  lemma RefusedGainClearsField(d: Driver, code: bv8, o: Oracle)
    requires code >= 4
    ensures !SetGain(d, code, o).ok
    ensures SetGain(d, code, o).drv.trace == d.trace
    ensures GetGain(SetGain(d, code, o).drv, Some(code), false, o).out == Some(0)
  {
  }

  /** An integration-time code that fits the 4-bit field is what
      get_als_integration_time reports. */
  lemma IntegrationTimeRoundTrip(d: Driver, code: bv8, o: Oracle)
    requires code < 16
    ensures GetIntegrationTime(SetIntegrationTime(d, code, o).drv, Some(0), false, o).out == Some(code)
  {
  }

  /** set_als_integration_time does not mask its argument: code 0x20 fits
      no 4-bit field, and writing it sets the cached gain's low bit. */
  lemma WideIntegrationTimeChangesGain(d: Driver, o: Oracle)
    requires Get(d.config, Gain) == 0
    ensures GetGain(SetIntegrationTime(d, 0x20, o).drv, Some(0), false, o).out == Some(1)
  {
  }

  /** A power-saving mode that fits the field is what get_power_saving_mode
      reports. */
  lemma PowerSavingModeRoundTrip(d: Driver, code: bv8, o: Oracle)
    requires code < 4
    ensures GetPowerSavingMode(SetPowerSavingMode(d, code, o).drv, Some(0), false, o).out == Some(code)
  {
  }

  /** set_enable_power_saving, then is_power_saving_enabled. */
  lemma PowerSavingRoundTrip(d: Driver, enable: bool, o: Oracle)
    ensures IsPowerSavingEnabled(SetEnablePowerSaving(d, enable, o).drv, Some(!enable), false, o).out == Some(enable)
  {
  }

  /** power_on, then is_running, reports running; shutdown, then
      is_running, reports not running. */
  lemma RunningRoundTrip(d: Driver, o: Oracle)
    ensures IsRunning(PowerOn(d, o).drv, Some(false), false, o).out == Some(true)
    ensures IsRunning(ShutDown(d, o).drv, Some(true), false, o).out == Some(false)
  {
  }

  /** The intended interrupt round trip: is_interrupt_enabled reports the
      flag set_enable_interrupt wrote. */
  lemma InterruptRoundTrip(d: Driver, enable: bool, o: Oracle)
    ensures IsInterruptEnabledCorrected(SetEnableInterrupt(d, enable, o).drv, Some(!enable), false, o).out == Some(enable)
  {
  }

  /** As written, is_interrupt_enabled reports the opposite of the flag
      set_enable_interrupt just wrote, for both flags. */
  lemma InterruptReportInverted(d: Driver, enable: bool, o: Oracle)
    ensures IsInterruptEnabled(SetEnableInterrupt(d, enable, o).drv, Some(enable), false, o).out == Some(!enable)
  {
  }

  /** A getter that re-reads the register and gets an answer reports the
      field of the decoded answer, whatever the cache held before. */
  lemma RefreshedGainReportsChip(d: Driver, o: Oracle)
    requires d.hasBus && o(|d.trace|).Ack?
    ensures GetGain(d, Some(0), true, o).out == Some(Get(Decode(o(|d.trace|).lo, o(|d.trace|).hi), Gain) as bv8)
  {
  }

  /** A failed re-read leaves the cache and the output cell as they were. */
  lemma FailedRefreshKeepsCache(d: Driver, out: Option<bv8>, o: Oracle)
    requires !(d.hasBus && o(|d.trace|).Ack?)
    ensures !GetGain(d, out, true, o).ok
    ensures GetGain(d, out, true, o).drv.config == d.config
    ensures GetGain(d, out, true, o).out == out
  {
  }

  /** Setting the gain code the cache already holds changes nothing in the
      cache: the cached field is always in range, so set_gain accepts it
      and rewrites the same word. */
  lemma ResetGainKeepsCache(d: Driver, o: Oracle)
    ensures SetGain(d, Get(d.config, Gain) as bv8, o).drv.config == d.config
  {
  }

  /** The same for the persistence code and set_als_persistence. */
  lemma ResetPersistenceKeepsCache(d: Driver, o: Oracle)
    ensures SetPersistence(d, Get(d.config, Persistence) as bv8, o).drv.config == d.config
  {
  }

  // ---------------------------------------------------------------------
  // Construction and initialisation
  // ---------------------------------------------------------------------

  /** A constructed driver has no bus controller until initialize: every
      setter fails and sends nothing. */
  lemma ConstructedIsInert(c: Command, o: Oracle)
    ensures !Apply(Constructed, c, o).ok
    ensures Apply(Constructed, c, o).drv.trace == []
  {
  }

  /** When the chip answers the device-ID read but neither seeding read,
      initialize programs the zero caches the constructor left: the
      configuration word becomes 0x1000 (gain 1/8, everything else 0) and
      the power-saving word stays 0. */
  lemma InitializeConstructed(o: Oracle)
    requires o(0).Ack? && o(1).Nak? && o(2).Nak?
    ensures Initialize(Constructed, true, o).ok
    ensures Initialize(Constructed, true, o).drv.config == 0x1000
    ensures Initialize(Constructed, true, o).drv.powerSave == 0
  {
  }

  /** After a successful initialize the cache holds the documented start-up
      settings: powered on, interrupt off, persistence 1 sample, gain 1/8,
      100 ms, power-saving mode 1; the power-saving enable bit is the one
      the seeding read found. */
  lemma InitializedSettings(d: Driver, bus: bool, o: Oracle)
    requires Initialize(d, bus, o).ok
    ensures IsRunning(Initialize(d, bus, o).drv, Some(false), false, o).out == Some(true)
    ensures IsInterruptEnabledCorrected(Initialize(d, bus, o).drv, Some(true), false, o).out == Some(false)
    ensures GetPersistence(Initialize(d, bus, o).drv, Some(9), false, o).out == Some(Persistence1)
    ensures GetGain(Initialize(d, bus, o).drv, Some(9), false, o).out == Some(Gain1_8)
    ensures GetIntegrationTime(Initialize(d, bus, o).drv, Some(9), false, o).out == Some(IntegrationTime100ms)
    ensures GetPowerSavingMode(Initialize(d, bus, o).drv, Some(9), false, o).out == Some(PowerSaveMode1)
    ensures Get(Initialize(d, bus, o).drv.powerSave, PowerSaveEnable)
            == Get(ReadOr(o(|d.trace| + 2), d.powerSave), PowerSaveEnable)
  {
  }

  /** initialize with no bus fails at the device-ID read, sends nothing and
      keeps both caches. */
  lemma InitializeWithoutBus(d: Driver, o: Oracle)
    ensures !Initialize(d, false, o).ok
    ensures Initialize(d, false, o).drv == d.(hasBus := false)
  {
  }

  // ---------------------------------------------------------------------
  // The ALS output read
  // ---------------------------------------------------------------------

  /** As written, a read of the ALS output register that the sensor
      answers is reported as a failure, and one it does not answer as a
      success; the corrected read reports the transport's answer. */
  lemma AlsStatusInverted(d: Driver, prior: bv16, o: Oracle)
    requires d.hasBus
    ensures o(|d.trace|).Ack? ==> !ReadAlsData(d, prior, o).ret && ReadAlsDataCorrected(d, prior, o).ret
    ensures o(|d.trace|).Nak? ==> ReadAlsData(d, prior, o).ret && !ReadAlsDataCorrected(d, prior, o).ret
  {
  }

}

=== FILE: lightsensor.dfy ===
/**
 The publish side of the light sensor: the illuminance attribute value it
 holds, the value it last computed, and the flag that marks an update
 written by a Matter client.

 The lux-to-attribute transform (10000 * log10(v) + 1 in the source, the
 MeasuredValue encoding of section 2.2 of the Matter Application Cluster
 Specification) is a parameter `t`. Publishing an attribute value is an
 event appended to `pushes`; what publishing does to the client-update
 flag is decided by the shared attribute-update routine and is a
 parameter `effect`.
 */
module LightSensor {

  type Uint16 = n: int | 0 <= n < 0x1_0000
  type Uint32 = n: int | 0 <= n < 0x1_0000_0000

  /** The Illuminance Measurement cluster and its MeasuredValue attribute. */
  const IlluminanceMeasurementId: Uint32 := 0x0400
  const MeasuredValueId: Uint32 := 0x0000

  /** One request to publish an attribute value. */
  datatype Push = Push(cluster: Uint32, attribute: Uint32, value: Uint16, force: bool)

  /** `current` and `prev` are the attribute value and the value of the
      previous update; `updateByClient` is the echo flag. */
  datatype Sensor = Sensor(current: Uint16, prev: Uint16, updateByClient: bool, pushes: seq<Push>)

  /** What the shared attribute-update routine leaves in the echo flag,
      given the flag before and the request. */
  type FlagEffect = (bool, Push) -> bool

  /** The constructor clears the echo flag and nothing else: the two values
      are whatever the memory held, so they are parameters. */
  function Construct(current: Uint16, prev: Uint16): (s: Sensor)
    ensures !s.updateByClient && s.pushes == []
    ensures s.current == current && s.prev == prev
  {
    Sensor(current, prev, false, [])
  }

  /** matter_update_clus_illummeas_attr_measureval: publish the current
      value to the MeasuredValue attribute. */
  function Publish(s: Sensor, force: bool, effect: FlagEffect): (r: Sensor)
    ensures r.current == s.current && r.prev == s.prev
    ensures r.pushes == s.pushes + [Push(IlluminanceMeasurementId, MeasuredValueId, s.current, force)]
    ensures r.updateByClient == effect(s.updateByClient, r.pushes[|r.pushes| - 1])
  {
    var p := Push(IlluminanceMeasurementId, MeasuredValueId, s.current, force);
    s.(pushes := s.pushes + [p], updateByClient := effect(s.updateByClient, p))
  }

  /** update_measured_value_illuminance: transform the reading, publish it
      (without forcing) only when it differs from the previous value, and
      remember it as the previous value either way. */
  function Update(s: Sensor, v: Uint16, t: Uint16 -> Uint16, effect: FlagEffect): (r: Sensor)
    ensures r.current == t(v) && r.prev == t(v)
    ensures t(v) == s.prev ==> r.pushes == s.pushes && r.updateByClient == s.updateByClient
    ensures t(v) != s.prev ==> r.pushes == s.pushes + [Push(IlluminanceMeasurementId, MeasuredValueId, t(v), false)]
    ensures t(v) != s.prev ==>
      r.updateByClient == effect(s.updateByClient, Push(IlluminanceMeasurementId, MeasuredValueId, t(v), false))
  {
    var measured := s.(current := t(v));
    var published := if measured.current != measured.prev then Publish(measured, false, effect) else measured;
    published.(prev := measured.current)
  }

  /** matter_on_change_attribute_value: a change reported for the
      MeasuredValue attribute of the Illuminance Measurement cluster clears
      the echo flag; any other change is ignored. */
  function OnChange(s: Sensor, cluster: Uint32, attribute: Uint32): (r: Sensor)
    ensures r.current == s.current && r.prev == s.prev && r.pushes == s.pushes
    ensures cluster == IlluminanceMeasurementId && attribute == MeasuredValueId ==> !r.updateByClient
    ensures !(cluster == IlluminanceMeasurementId && attribute == MeasuredValueId) ==> r.updateByClient == s.updateByClient
  {
    if cluster == IlluminanceMeasurementId && attribute == MeasuredValueId && s.updateByClient then
      s.(updateByClient := false)
    else s
  }

  /** matter_update_all_attribute_values: publish the stored value again,
      without forcing. */
  function UpdateAll(s: Sensor, effect: FlagEffect): (r: Sensor)
    ensures r.current == s.current && r.prev == s.prev
    ensures r.pushes == s.pushes + [Push(IlluminanceMeasurementId, MeasuredValueId, s.current, false)]
    ensures r.updateByClient == effect(s.updateByClient, Push(IlluminanceMeasurementId, MeasuredValueId, s.current, false))
  {
    Publish(s, false, effect)
  }

  // ---------------------------------------------------------------------
  // Properties
  // ---------------------------------------------------------------------

  /** An update publishes exactly when the transformed reading differs from
      the previous value as it stood before the call. */
  lemma UpdatePublishesIffChanged(s: Sensor, v: Uint16, t: Uint16 -> Uint16, effect: FlagEffect)
    ensures |Update(s, v, t, effect).pushes| == |s.pushes| + 1 <==> t(v) != s.prev
    ensures |Update(s, v, t, effect).pushes| == |s.pushes| <==> t(v) == s.prev
  {
  }

  /** Two consecutive updates with the same reading publish nothing the
      second time, whatever the first did. */
  lemma RepeatedUpdateIsSilent(s: Sensor, v: Uint16, t: Uint16 -> Uint16, effect: FlagEffect)
    ensures Update(Update(s, v, t, effect), v, t, effect).pushes == Update(s, v, t, effect).pushes
    ensures Update(Update(s, v, t, effect), v, t, effect) == Update(s, v, t, effect)
  {
  }

  /** Because the constructor leaves `prev` uninitialised, whether the first
      update publishes depends on the memory it held: it is silent when
      `prev` happens to equal the transformed reading, and publishes
      otherwise. */
  lemma FirstUpdateDependsOnPrev(current: Uint16, prev: Uint16, v: Uint16, t: Uint16 -> Uint16, effect: FlagEffect)
    ensures prev == t(v) ==> Update(Construct(current, prev), v, t, effect).pushes == []
    ensures prev != t(v) ==> Update(Construct(current, prev), v, t, effect).pushes
                              == [Push(IlluminanceMeasurementId, MeasuredValueId, t(v), false)]
  {
  }

  /** Handling a change report twice is handling it once. */
  lemma OnChangeIdempotent(s: Sensor, cluster: Uint32, attribute: Uint32)
    ensures OnChange(OnChange(s, cluster, attribute), cluster, attribute) == OnChange(s, cluster, attribute)
  {
  }

  /** A re-publish neither recomputes the value nor touches `prev`, so an
      update with the reading that produced the stored value stays silent
      afterwards. */
  lemma UpdateAllKeepsDedup(s: Sensor, v: Uint16, t: Uint16 -> Uint16, effect: FlagEffect)
    ensures var u := Update(s, v, t, effect);
            Update(UpdateAll(u, effect), v, t, effect).pushes == UpdateAll(u, effect).pushes
  {
  }

  /** The inputs the sensor reacts to. */
  datatype Event =
    | Measured(lux: Uint16)
    | Changed(cluster: Uint32, attribute: Uint32)
    | Refresh

  /** Handle one event. */
  function Step(s: Sensor, e: Event, t: Uint16 -> Uint16, effect: FlagEffect): Sensor
  {
    match e
    case Measured(v) => Update(s, v, t, effect)
    case Changed(c, a) => OnChange(s, c, a)
    case Refresh => UpdateAll(s, effect)
  }

  /** Handle a sequence of events in order. */
  function Run(s: Sensor, es: seq<Event>, t: Uint16 -> Uint16, effect: FlagEffect): Sensor
    decreases |es|
  {
    if es == [] then s else Run(Step(s, es[0], t, effect), es[1..], t, effect)
  }

  /** Every request is for the MeasuredValue attribute of the Illuminance
      Measurement cluster and none forces the update. */
  ghost predicate Unforced(ps: seq<Push>)
  {
    forall i :: 0 <= i < |ps| ==>
      ps[i] == Push(IlluminanceMeasurementId, MeasuredValueId, ps[i].value, false)
  }

  /** No event publishes anything but unforced MeasuredValue requests, and
      events only ever append to the requests already made. */
  lemma {:induction false} RunPublishesUnforced(s: Sensor, es: seq<Event>, t: Uint16 -> Uint16, effect: FlagEffect)
    requires Unforced(s.pushes)
    ensures Unforced(Run(s, es, t, effect).pushes)
    ensures s.pushes <= Run(s, es, t, effect).pushes
    decreases |es|
  {
    if es != [] {
      var next := Step(s, es[0], t, effect);
      assert Unforced(next.pushes) && s.pushes <= next.pushes;
      RunPublishesUnforced(next, es[1..], t, effect);
    }
  }

  /** The last published value is the previous value. */
  ghost predicate Settled(s: Sensor)
  {
    |s.pushes| > 0 ==> s.pushes[|s.pushes| - 1].value == s.prev
  }

  /** No two consecutive requests carry the same value. */
  ghost predicate NoRepeats(ps: seq<Push>)
  {
    forall i :: 0 < i < |ps| ==> ps[i - 1].value != ps[i].value
  }

  /** The readings of a run made only of measurements (a helper that
      turns a sequence of readings into events). */
  function Measurements(vs: seq<Uint16>): (es: seq<Event>)
    ensures |es| == |vs|
    ensures forall i :: 0 <= i < |vs| ==> es[i] == Measured(vs[i])
  {
    if vs == [] then [] else [Measured(vs[0])] + Measurements(vs[1..])
  }

  /** The point of deduplication: when nothing but measurements arrive, the
      published values never repeat back to back, provided the history
      starts settled (as it does right after construction). */
  lemma {:induction false} MeasurementsNeverRepeat(s: Sensor, vs: seq<Uint16>, t: Uint16 -> Uint16, effect: FlagEffect)
    requires Settled(s) && NoRepeats(s.pushes)
    ensures Settled(Run(s, Measurements(vs), t, effect))
    ensures NoRepeats(Run(s, Measurements(vs), t, effect).pushes)
    decreases |vs|
  {
    if vs != [] {
      var next := Update(s, vs[0], t, effect);
      assert Settled(next);
      assert NoRepeats(next.pushes) by {
        if t(vs[0]) != s.prev {
          var n := |next.pushes|;
          assert next.pushes[n - 1].value == t(vs[0]);
          assert next.pushes[..n - 1] == s.pushes;
        }
      }
      assert Measurements(vs)[1..] == Measurements(vs[1..]);
      MeasurementsNeverRepeat(next, vs[1..], t, effect);
    }
  }

  /** Right after construction the history is settled and repeat-free. */
  lemma ConstructedSettled(current: Uint16, prev: Uint16)
    ensures Settled(Construct(current, prev)) && NoRepeats(Construct(current, prev).pushes)
  {
  }

}

=== FILE: registers.dfy ===
/**
 Layout of the two VEML7700 control registers the driver mirrors. A
 sub-field is a bit-mask, the shift of its lowest bit and the number of
 values it can hold.
 */
module Registers {

  type Shift = n: bv16 | n < 16

  datatype Field = Field(mask: bv16, shift: Shift, limit: bv16)

  /** Configuration bit 0: 1 = shut down. */
  const Shutdown := Field(0x0001, 0, 2)
  /** Configuration bit 1: 1 = threshold interrupt enabled. */
  const InterruptEnable := Field(0x0002, 1, 2)
  /** Configuration bits 4-5: interrupt persistence code. */
  const Persistence := Field(0x0030, 4, 4)
  /** Configuration bits 6-9: integration-time code. */
  const IntegrationTime := Field(0x03C0, 6, 16)
  /** Configuration bits 11-12: gain code. */
  const Gain := Field(0x1800, 11, 4)
  /** Power-saving bit 0: 1 = power saving enabled. */
  const PowerSaveEnable := Field(0x0001, 0, 2)
  /** Power-saving bits 1-2: power-saving mode. */
  const PowerSaveMode := Field(0x0006, 1, 4)

  /** The sub-fields of the configuration register (command code 0x00) and of
      the power-saving register (command code 0x03). */
  predicate IsField(f: Field)
  {
    f in {Shutdown, InterruptEnable, Persistence, IntegrationTime, Gain, PowerSaveEnable, PowerSaveMode}
  }

  /** The value held in field `f` of `reg`. */
  function Get(reg: bv16, f: Field): bv16
  {
    (reg & f.mask) >> f.shift
  }

  /** Every bit of `reg` outside field `f`; equivalently, `reg` with the
      field cleared. */
  function Others(reg: bv16, f: Field): bv16
  {
    reg & !f.mask
  }

  /** Clear field `f` of `reg`, then OR in `v` shifted to the field's
      position, without masking `v`: a value too wide for the field spills
      into the bits above it. */
  function Insert(reg: bv16, f: Field, v: bv16): bv16
  {
    Others(reg, f) | (v << f.shift)
  }

  /** A flag as the 0/1 value of a one-bit field. */
  function Bit(b: bool): bv16
  {
    if b then 1 else 0
  }

  /** A value that fits its field is read back from it. */
  lemma InsertGet(reg: bv16, f: Field, v: bv16)
    requires IsField(f) && v < f.limit
    ensures Get(Insert(reg, f, v), f) == v
  {
  }

  /** Inserting a value that fits its field changes no bit outside it. */
  lemma InsertOthers(reg: bv16, f: Field, v: bv16)
    requires IsField(f) && v < f.limit
    ensures Others(Insert(reg, f, v), f) == Others(reg, f)
  {
  }

  /** A cleared field reads as zero. */
  lemma ClearedGet(reg: bv16, f: Field)
    requires IsField(f)
    ensures Get(Others(reg, f), f) == 0
  {
  }

  /** Clearing a field twice is clearing it once. */
  lemma OthersIdempotent(reg: bv16, f: Field)
    requires IsField(f)
    ensures Others(Others(reg, f), f) == Others(reg, f)
  {
  }

  // -----------------------------------------------------------------------
  // The literal masks and shifts of the driver's source, field by field.
  // -----------------------------------------------------------------------

  /** power_on clears bit 0 with the mask 0xFFFE. */
  lemma PowerOnMask(reg: bv16)
    ensures Insert(reg, Shutdown, 0) == reg & 0xFFFE
  {
  }

  /** The word shutdown writes: `reg` with bit 0 set. */
  function ShutWord(reg: bv16): bv16
  {
    reg | 0x0001
  }

  /** shutdown sets bit 0 with 0x0001. */
  lemma ShutdownMask(reg: bv16)
    ensures Insert(reg, Shutdown, 1) == ShutWord(reg)
  {
  }

  /** set_enable_interrupt sets with 0x0002 and clears with 0xFFFD. */
  lemma InterruptMask(reg: bv16, enable: bool)
    ensures Insert(reg, InterruptEnable, Bit(enable)) == if enable then reg | 0x0002 else reg & 0xFFFD
  {
  }

  /** set_als_persistence clears with 0xFFCF and shifts by 4. */
  lemma PersistenceMask(reg: bv16, v: bv8)
    ensures Insert(reg, Persistence, v as bv16) == (reg & 0xFFCF) | ((v as bv16) << 4)
  {
  }

  /** set_als_integration_time clears with 0xFC3F and shifts by 6. */
  lemma IntegrationTimeMask(reg: bv16, v: bv8)
    ensures Insert(reg, IntegrationTime, v as bv16) == (reg & 0xFC3F) | ((v as bv16) << 6)
  {
  }

  /** set_gain clears with 0xE7FF and shifts by 11. */
  lemma GainMask(reg: bv16, v: bv8)
    ensures Insert(reg, Gain, v as bv16) == (reg & 0xE7FF) | ((v as bv16) << 11)
  {
  }

  /** set_enable_power_saving sets with 0x0001 and clears with 0xFFFE. */
  lemma PowerSaveEnableMask(reg: bv16, enable: bool)
    ensures Insert(reg, PowerSaveEnable, Bit(enable)) == if enable then reg | 0x0001 else reg & 0xFFFE
  {
  }

  /** set_power_saving_mode clears with 0xFFF9 and shifts by 1. */
  lemma PowerSaveModeMask(reg: bv16, v: bv8)
    ensures Insert(reg, PowerSaveMode, v as bv16) == (reg & 0xFFF9) | ((v as bv16) << 1)
  {
  }

  /** is_running tests bit 0 with 0x0001. */
  lemma ShutdownGetterMask(reg: bv16)
    ensures Get(reg, Shutdown) == 1 <==> reg & 0x0001 != 0
  {
  }

  /** is_interrupt_enabled tests bit 1 with 0x0002. */
  lemma InterruptEnableGetterMask(reg: bv16)
    ensures Get(reg, InterruptEnable) == 1 <==> reg & 0x0002 != 0
  {
  }

  /** get_als_persistence extracts with 0x0030 and shift 4. */
  lemma PersistenceGetterMask(reg: bv16)
    ensures Get(reg, Persistence) == (reg & 0x0030) >> 4
  {
  }

  /** get_als_integration_time extracts with 0x03C0 and shift 6. */
  lemma IntegrationTimeGetterMask(reg: bv16)
    ensures Get(reg, IntegrationTime) == (reg & 0x03C0) >> 6
  {
  }

  /** get_gain extracts with 0x1800 and shift 11. */
  lemma GainGetterMask(reg: bv16)
    ensures Get(reg, Gain) == (reg & 0x1800) >> 11
  {
  }

  /** is_power_saving_enabled tests bit 0 with 0x0001. */
  lemma PowerSaveEnableGetterMask(reg: bv16)
    ensures Get(reg, PowerSaveEnable) == 1 <==> reg & 0x0001 != 0
  {
  }

  /** get_power_saving_mode extracts with 0x0006 and shift 1. */
  lemma PowerSaveModeGetterMask(reg: bv16)
    ensures Get(reg, PowerSaveMode) == (reg & 0x0006) >> 1
  {
  }

  // -----------------------------------------------------------------------
  // Unmasked inserts into the two setters without a range check.
  // -----------------------------------------------------------------------

  /** An 8-bit integration-time code never touches bits 0-5 or 14-15. */
  lemma IntegrationTimeKeepsOuterBits(reg: bv16, v: bv8)
    ensures Insert(reg, IntegrationTime, v as bv16) & 0xC03F == reg & 0xC03F
  {
  }

  /** Bits 4-7 of an 8-bit integration-time code are ORed into bits 10-13. */
  lemma IntegrationTimeSpill(reg: bv16, v: bv8)
    ensures Insert(reg, IntegrationTime, v as bv16) & 0x3C00 == (reg & 0x3C00) | ((v as bv16 << 6) & 0x3C00)
  {
  }

  /** In particular bits 5-6 of the code are ORed into the gain field. */
  lemma IntegrationTimeSpillsIntoGain(reg: bv16, v: bv8)
    ensures Get(Insert(reg, IntegrationTime, v as bv16), Gain) == Get(reg, Gain) | ((v as bv16 >> 5) & 3)
  {
  }

  /** An 8-bit power-saving mode never touches bit 0 or bits 9-15. */
  lemma PowerSaveModeKeepsOuterBits(reg: bv16, v: bv8)
    ensures Insert(reg, PowerSaveMode, v as bv16) & 0xFE01 == reg & 0xFE01
  {
  }

  /** Bits 2-7 of an 8-bit power-saving mode are ORed into bits 3-8. */
  lemma PowerSaveModeSpill(reg: bv16, v: bv8)
    ensures Insert(reg, PowerSaveMode, v as bv16) & 0x01F8 == (reg & 0x01F8) | ((v as bv16 << 1) & 0x01F8)
  {
  }

  // -----------------------------------------------------------------------
  // The register contents initialize leaves behind.
  // -----------------------------------------------------------------------

  /** The configuration word initialize leaves behind when seeded with
      `c`: persistence, gain and integration-time fields and both flag bits
      cleared, gain code 0x02 (1/8) set. */
  function StartConfig(c: bv16): bv16
  {
    (c & 0xE40C) | 0x1000
  }

  /** The power-saving word initialize leaves behind when seeded with `p`:
      the mode field cleared. */
  function StartSaving(p: bv16): bv16
  {
    p & 0xFFF9
  }

  /** shutdown, interrupt off, persistence 0, gain 0x02, integration time
      0x00, power on, applied in that order to the configuration word. */
  lemma InitialConfig(c: bv16)
    ensures Insert(Insert(Insert(Insert(Insert(Insert(c, Shutdown, 1), InterruptEnable, 0), Persistence, 0), Gain, 2), IntegrationTime, 0), Shutdown, 0)
            == StartConfig(c)
  {
  }

  /** Power-saving mode 0 applied to the power-saving word. */
  lemma InitialPowerSave(p: bv16)
    ensures Insert(p, PowerSaveMode, 0) == StartSaving(p)
  {
  }

  /** The configuration word initialize leaves: powered on. */
  lemma InitialShutdown(c: bv16)
    ensures Get(StartConfig(c), Shutdown) == 0
  {
  }

  /** The configuration word initialize leaves: interrupt disabled. */
  lemma InitialInterruptEnable(c: bv16)
    ensures Get(StartConfig(c), InterruptEnable) == 0
  {
  }

  /** The configuration word initialize leaves: persistence code 0. */
  lemma InitialPersistence(c: bv16)
    ensures Get(StartConfig(c), Persistence) == 0
  {
  }

  /** The configuration word initialize leaves: gain code 0x02 (1/8). */
  lemma InitialGain(c: bv16)
    ensures Get(StartConfig(c), Gain) == 2
  {
  }

  /** The configuration word initialize leaves: integration code 0x00 (100 ms). */
  lemma InitialIntegrationTime(c: bv16)
    ensures Get(StartConfig(c), IntegrationTime) == 0
  {
  }

  /** The power-saving word initialize leaves: mode 0. */
  lemma InitialPowerSaveMode(p: bv16)
    ensures Get(StartSaving(p), PowerSaveMode) == 0
  {
  }

  /** The power-saving word initialize leaves: the enable bit untouched. */
  lemma InitialPowerSaveEnable(p: bv16)
    ensures Get(StartSaving(p), PowerSaveEnable) == Get(p, PowerSaveEnable)
  {
  }

  // -----------------------------------------------------------------------
  // The gain and integration-time fields are independent.
  // -----------------------------------------------------------------------

  /** The configuration bits outside the gain and integration-time fields. */
  function Outer(reg: bv16): bv16
  {
    reg & 0xE43F
  }

  /** Registers that differ at most in the gain field agree on every bit
      outside gain and integration time. */
  lemma GainChangeKeepsOuterBits(a: bv16, b: bv16)
    requires Others(a, Gain) == Others(b, Gain)
    ensures Outer(a) == Outer(b)
  {
  }

  /** Registers that differ at most in the gain field agree on integration time. */
  lemma GainChangeKeepsIntegrationTime(a: bv16, b: bv16)
    requires Others(a, Gain) == Others(b, Gain)
    ensures Get(a, IntegrationTime) == Get(b, IntegrationTime)
  {
  }

  /** Registers that differ at most in the integration-time field agree on
      every bit outside gain and integration time. */
  lemma IntegrationChangeKeepsOuterBits(a: bv16, b: bv16)
    requires Others(a, IntegrationTime) == Others(b, IntegrationTime)
    ensures Outer(a) == Outer(b)
  {
  }

  /** Registers that differ at most in the integration-time field agree on gain. */
  lemma IntegrationChangeKeepsGain(a: bv16, b: bv16)
    requires Others(a, IntegrationTime) == Others(b, IntegrationTime)
    ensures Get(a, Gain) == Get(b, Gain)
  {
  }

}

=== FILE: veml7700.dfy ===
/**
 Register mirror of the VEML7700 ambient-light sensor driver.

 The driver caches the configuration register and the power-saving register.
 Each setter patches its sub-field into the cache and then writes the whole
 cached word to the chip; each getter extracts its sub-field from the cache,
 optionally re-reading the register first. A driver value is immutable: every
 operation returns the driver as it is afterwards, together with the boolean
 the source returns.
 */
module Veml7700 {

  import opened Wrappers
  import opened Bus
  import opened Registers

  /** `hasBus` is false while the driver has no bus controller (a null
      pointer). `trace` lists every bus transaction issued so far, so its
      length is also the index of the next oracle reply. */
  datatype Driver = Driver(hasBus: bool, config: bv16, powerSave: bv16, trace: seq<Txn>)

  /** A driver after an operation that returns only a status. */
  datatype Status = Status(drv: Driver, ok: bool)

  /** A driver after a register read; `value` is None when the read failed. */
  datatype RegRead = RegRead(drv: Driver, value: Option<bv16>)

  /** A driver after a getter. `out` is the caller's output cell afterwards:
      None stands for a null output pointer. */
  datatype Reading<T> = Reading(drv: Driver, ok: bool, out: Option<T>)

  /** The freshly constructed driver: no bus, both caches zero. */
  const Constructed := Driver(false, 0, 0, [])

  /** The cache mirroring the register with command code `code`. */
  function Cache(d: Driver, code: bv8): bv16
  {
    if code == PowerSaveCode then d.powerSave else d.config
  }

  /** `r` is `d` after writing `v` to register `code` through the bus:
      exactly one write transaction of the encoded frame when a bus is
      present, none otherwise, and success iff the transport acknowledged. */
  ghost predicate WroteThrough(d: Driver, r: Status, code: bv8, v: bv16, o: Oracle)
  {
    && r.drv.hasBus == d.hasBus
    && r.drv.trace == d.trace + (if d.hasBus then [Write(DeviceAddress, code, v, o(|d.trace|).Ack?)] else [])
    && (r.ok <==> d.hasBus && o(|d.trace|).Ack?)
  }

  /** `drv` is `d` after re-reading register `code` into its cache: exactly
      one read transaction when a bus is present, success iff the transport
      answered, and on success the cache holds the decoded reply. */
  ghost predicate Refreshed(d: Driver, drv: Driver, ok: bool, code: bv8, o: Oracle)
  {
    var reply := o(|d.trace|);
    && drv.hasBus == d.hasBus
    && drv.trace == d.trace + (if d.hasBus then [WriteRead(DeviceAddress, code, reply)] else [])
    && (ok <==> d.hasBus && reply.Ack?)
    && (ok ==> Cache(drv, code) == Decode(reply.lo, reply.hi))
    && (!ok ==> Cache(drv, code) == Cache(d, code))
  }

  // ---------------------------------------------------------------------
  // Register transport
  // ---------------------------------------------------------------------

  /** read_register_common: send the command code, read two bytes back. */
  function ReadRegister(d: Driver, code: bv8, o: Oracle): (r: RegRead)
    ensures r.drv.config == d.config && r.drv.powerSave == d.powerSave && r.drv.hasBus == d.hasBus
    ensures !d.hasBus ==> r == RegRead(d, None)
    ensures d.hasBus ==> r.drv.trace == d.trace + [WriteRead(DeviceAddress, code, o(|d.trace|))]
    ensures r.value.Some? <==> d.hasBus && o(|d.trace|).Ack?
    ensures r.value.Some? ==> r.value.value == Decode(o(|d.trace|).lo, o(|d.trace|).hi)
  {
    if !d.hasBus then RegRead(d, None)
    else
      var reply := o(|d.trace|);
      var d' := d.(trace := d.trace + [WriteRead(DeviceAddress, code, reply)]);
      match reply
      case Nak => RegRead(d', None)
      case Ack(lo, hi) => RegRead(d', Some(Decode(lo, hi)))
  }

  /** write_register_common: send the command code and the value, low byte first. */
  function WriteRegister(d: Driver, code: bv8, v: bv16, o: Oracle): (r: Status)
    ensures r.drv.config == d.config && r.drv.powerSave == d.powerSave
    ensures !d.hasBus ==> r == Status(d, false)
    ensures WroteThrough(d, r, code, v, o)
  {
    if !d.hasBus then Status(d, false)
    else
      var acked := o(|d.trace|).Ack?;
      Status(d.(trace := d.trace + [Write(DeviceAddress, code, v, acked)]), acked)
  }

  /** A register written through the bus and read back unchanged by the chip
      yields the value written: the read decodes the written frame's bytes. */
  lemma WriteThenReadBack(d: Driver, code: bv8, v: bv16, o: Oracle)
    requires d.hasBus
    requires o(|d.trace| + 1) == Ack(Encode(code, v)[1], Encode(code, v)[2])
    ensures ReadRegister(WriteRegister(d, code, v, o).drv, code, o).value == Some(v)
  {
    var w := WriteRegister(d, code, v, o);
    assert |w.drv.trace| == |d.trace| + 1;
  }

  /** Re-read the register `code` into its cache when `readRegister` is set;
      otherwise do nothing and succeed. A failed read keeps the cache. */
  function Sync(d: Driver, code: bv8, readRegister: bool, o: Oracle): (r: Status)
    requires code == ConfigCode || code == PowerSaveCode
    ensures !readRegister ==> r == Status(d, true)
    ensures readRegister ==> Refreshed(d, r.drv, r.ok, code, o)
    ensures code == ConfigCode ==> r.drv.powerSave == d.powerSave
    ensures code == PowerSaveCode ==> r.drv.config == d.config
  {
    if !readRegister then Status(d, true)
    else
      var rr := ReadRegister(d, code, o);
      match rr.value
      case None => Status(rr.drv, false)
      case Some(v) =>
        if code == PowerSaveCode then Status(rr.drv.(powerSave := v), true)
        else Status(rr.drv.(config := v), true)
  }

  /** write_configure_register with the cached configuration word. */
  function WriteConfig(d: Driver, o: Oracle): (r: Status)
    ensures r.drv.config == d.config && r.drv.powerSave == d.powerSave
    ensures WroteThrough(d, r, ConfigCode, d.config, o)
  {
    WriteRegister(d, ConfigCode, d.config, o)
  }

  /** write_power_saving_register with the cached power-saving word. */
  function WritePowerSave(d: Driver, o: Oracle): (r: Status)
    ensures r.drv.config == d.config && r.drv.powerSave == d.powerSave
    ensures WroteThrough(d, r, PowerSaveCode, d.powerSave, o)
  {
    WriteRegister(d, PowerSaveCode, d.powerSave, o)
  }

  // ---------------------------------------------------------------------
  // Configuration register accessors
  // ---------------------------------------------------------------------

  /** power_on: clear the shutdown bit, then write the whole word. */
  function PowerOn(d: Driver, o: Oracle): (r: Status)
    ensures r.drv.config == Insert(d.config, Shutdown, 0)
    ensures Get(r.drv.config, Shutdown) == 0
    ensures Others(r.drv.config, Shutdown) == Others(d.config, Shutdown)
    ensures r.drv.powerSave == d.powerSave
    ensures WroteThrough(d, r, ConfigCode, r.drv.config, o)
  {
    InsertGet(d.config, Shutdown, 0);
    InsertOthers(d.config, Shutdown, 0);
    WriteConfig(d.(config := Insert(d.config, Shutdown, 0)), o)
  }

  /** shutdown: set the shutdown bit, then write the whole word. */
  function ShutDown(d: Driver, o: Oracle): (r: Status)
    ensures r.drv.config == Insert(d.config, Shutdown, 1)
    ensures Get(r.drv.config, Shutdown) == 1
    ensures Others(r.drv.config, Shutdown) == Others(d.config, Shutdown)
    ensures r.drv.powerSave == d.powerSave
    ensures WroteThrough(d, r, ConfigCode, r.drv.config, o)
  {
    InsertGet(d.config, Shutdown, 1);
    InsertOthers(d.config, Shutdown, 1);
    WriteConfig(d.(config := Insert(d.config, Shutdown, 1)), o)
  }

  /** is_running: the sensor runs iff the shutdown bit is clear. */
  function IsRunning(d: Driver, out: Option<bool>, readRegister: bool, o: Oracle): (r: Reading<bool>)
    ensures !readRegister ==> r.drv == d && r.ok
    ensures readRegister ==> Refreshed(d, r.drv, r.ok, ConfigCode, o)
    ensures r.drv.powerSave == d.powerSave
    ensures !r.ok ==> r.out == out
    ensures r.ok ==> r.out == if out.Some? then Some(Get(r.drv.config, Shutdown) == 0) else None
  {
    var s := Sync(d, ConfigCode, readRegister, o);
    if !s.ok then Reading(s.drv, false, out)
    else Reading(s.drv, true, if out.Some? then Some(Get(s.drv.config, Shutdown) == 0) else None)
  }

  /** set_enable_interrupt: set or clear the interrupt-enable bit, then write. */
  function SetEnableInterrupt(d: Driver, enable: bool, o: Oracle): (r: Status)
    ensures r.drv.config == Insert(d.config, InterruptEnable, Bit(enable))
    ensures Get(r.drv.config, InterruptEnable) == Bit(enable)
    ensures Others(r.drv.config, InterruptEnable) == Others(d.config, InterruptEnable)
    ensures r.drv.powerSave == d.powerSave
    ensures WroteThrough(d, r, ConfigCode, r.drv.config, o)
  {
    InsertGet(d.config, InterruptEnable, Bit(enable));
    InsertOthers(d.config, InterruptEnable, Bit(enable));
    WriteConfig(d.(config := Insert(d.config, InterruptEnable, Bit(enable))), o)
  }

  /** is_interrupt_enabled, as written: it reports the NEGATION of the
      interrupt-enable bit. */
  function IsInterruptEnabled(d: Driver, out: Option<bool>, readRegister: bool, o: Oracle): (r: Reading<bool>)
    ensures !readRegister ==> r.drv == d && r.ok
    ensures readRegister ==> Refreshed(d, r.drv, r.ok, ConfigCode, o)
    ensures r.drv.powerSave == d.powerSave
    ensures !r.ok ==> r.out == out
    ensures r.ok ==> r.out == if out.Some? then Some(Get(r.drv.config, InterruptEnable) == 0) else None
  {
    var s := Sync(d, ConfigCode, readRegister, o);
    if !s.ok then Reading(s.drv, false, out)
    else Reading(s.drv, true, if out.Some? then Some(Get(s.drv.config, InterruptEnable) == 0) else None)
  }

  /** is_interrupt_enabled as evidently intended: it reports the bit that
      set_enable_interrupt writes. */
  function IsInterruptEnabledCorrected(d: Driver, out: Option<bool>, readRegister: bool, o: Oracle): (r: Reading<bool>)
    ensures !readRegister ==> r.drv == d && r.ok
    ensures readRegister ==> Refreshed(d, r.drv, r.ok, ConfigCode, o)
    ensures r.drv.powerSave == d.powerSave
    ensures !r.ok ==> r.out == out
    ensures r.ok ==> r.out == if out.Some? then Some(Get(r.drv.config, InterruptEnable) == 1) else None
  {
    var s := Sync(d, ConfigCode, readRegister, o);
    if !s.ok then Reading(s.drv, false, out)
    else Reading(s.drv, true, if out.Some? then Some(Get(s.drv.config, InterruptEnable) == 1) else None)
  }

  /** set_als_persistence: the field is cleared BEFORE the range check, so a
      rejected value (4 or more) still zeroes the field in the cache, but
      nothing is written to the chip. */
  function SetPersistence(d: Driver, value: bv8, o: Oracle): (r: Status)
    ensures r.drv.config == if value < 4 then Insert(d.config, Persistence, value as bv16) else Others(d.config, Persistence)
    ensures value < 4 ==> Get(r.drv.config, Persistence) == value as bv16
    ensures value >= 4 ==> Get(r.drv.config, Persistence) == 0
    ensures Others(r.drv.config, Persistence) == Others(d.config, Persistence)
    ensures r.drv.powerSave == d.powerSave
    ensures value < 4 ==> WroteThrough(d, r, ConfigCode, r.drv.config, o)
    ensures value >= 4 ==> !r.ok && r.drv.trace == d.trace && r.drv.hasBus == d.hasBus
  {
    if value >= 4 then
      ClearedGet(d.config, Persistence);
      OthersIdempotent(d.config, Persistence);
      Status(d.(config := Others(d.config, Persistence)), false)
    else
      InsertGet(d.config, Persistence, value as bv16);
      InsertOthers(d.config, Persistence, value as bv16);
      WriteConfig(d.(config := Insert(d.config, Persistence, value as bv16)), o)
  }

  /** get_als_persistence. */
  function GetPersistence(d: Driver, out: Option<bv8>, readRegister: bool, o: Oracle): (r: Reading<bv8>)
    ensures !readRegister ==> r.drv == d && r.ok
    ensures readRegister ==> Refreshed(d, r.drv, r.ok, ConfigCode, o)
    ensures r.drv.powerSave == d.powerSave
    ensures !r.ok ==> r.out == out
    ensures r.ok ==> r.out == if out.Some? then Some(Get(r.drv.config, Persistence) as bv8) else None
  {
    var s := Sync(d, ConfigCode, readRegister, o);
    if !s.ok then Reading(s.drv, false, out)
    else Reading(s.drv, true, if out.Some? then Some(Get(s.drv.config, Persistence) as bv8) else None)
  }

  /** set_als_integration_time: NO range check. The value is shifted into
      place unmasked, so codes of 16 or more also set bits 10 to 13, which
      include the gain field; bits 0 to 5 and 14 to 15 never change. */
  function SetIntegrationTime(d: Driver, value: bv8, o: Oracle): (r: Status)
    ensures r.drv.config == Insert(d.config, IntegrationTime, value as bv16)
    ensures value < 16 ==> Get(r.drv.config, IntegrationTime) == value as bv16
    ensures value < 16 ==> Others(r.drv.config, IntegrationTime) == Others(d.config, IntegrationTime)
    ensures r.drv.powerSave == d.powerSave
    ensures WroteThrough(d, r, ConfigCode, r.drv.config, o)
  {
    if value < 16 then
      InsertGet(d.config, IntegrationTime, value as bv16);
      InsertOthers(d.config, IntegrationTime, value as bv16);
      WriteConfig(d.(config := Insert(d.config, IntegrationTime, value as bv16)), o)
    else
      WriteConfig(d.(config := Insert(d.config, IntegrationTime, value as bv16)), o)
  }

  /** get_als_integration_time. */
  function GetIntegrationTime(d: Driver, out: Option<bv8>, readRegister: bool, o: Oracle): (r: Reading<bv8>)
    ensures !readRegister ==> r.drv == d && r.ok
    ensures readRegister ==> Refreshed(d, r.drv, r.ok, ConfigCode, o)
    ensures r.drv.powerSave == d.powerSave
    ensures !r.ok ==> r.out == out
    ensures r.ok ==> r.out == if out.Some? then Some(Get(r.drv.config, IntegrationTime) as bv8) else None
  {
    var s := Sync(d, ConfigCode, readRegister, o);
    if !s.ok then Reading(s.drv, false, out)
    else Reading(s.drv, true, if out.Some? then Some(Get(s.drv.config, IntegrationTime) as bv8) else None)
  }

  /** set_gain: like set_als_persistence, the field is cleared before the
      range check, so a rejected value zeroes the cached gain. */
  function SetGain(d: Driver, value: bv8, o: Oracle): (r: Status)
    ensures r.drv.config == if value < 4 then Insert(d.config, Gain, value as bv16) else Others(d.config, Gain)
    ensures value < 4 ==> Get(r.drv.config, Gain) == value as bv16
    ensures value >= 4 ==> Get(r.drv.config, Gain) == 0
    ensures Others(r.drv.config, Gain) == Others(d.config, Gain)
    ensures r.drv.powerSave == d.powerSave
    ensures value < 4 ==> WroteThrough(d, r, ConfigCode, r.drv.config, o)
    ensures value >= 4 ==> !r.ok && r.drv.trace == d.trace && r.drv.hasBus == d.hasBus
  {
    if value >= 4 then
      ClearedGet(d.config, Gain);
      OthersIdempotent(d.config, Gain);
      Status(d.(config := Others(d.config, Gain)), false)
    else
      InsertGet(d.config, Gain, value as bv16);
      InsertOthers(d.config, Gain, value as bv16);
      WriteConfig(d.(config := Insert(d.config, Gain, value as bv16)), o)
  }

  /** get_gain. */
  function GetGain(d: Driver, out: Option<bv8>, readRegister: bool, o: Oracle): (r: Reading<bv8>)
    ensures !readRegister ==> r.drv == d && r.ok
    ensures readRegister ==> Refreshed(d, r.drv, r.ok, ConfigCode, o)
    ensures r.drv.powerSave == d.powerSave
    ensures !r.ok ==> r.out == out
    ensures r.ok ==> r.out == if out.Some? then Some(Get(r.drv.config, Gain) as bv8) else None
  {
    var s := Sync(d, ConfigCode, readRegister, o);
    if !s.ok then Reading(s.drv, false, out)
    else Reading(s.drv, true, if out.Some? then Some(Get(s.drv.config, Gain) as bv8) else None)
  }

  // ---------------------------------------------------------------------
  // Power-saving register accessors
  // ---------------------------------------------------------------------

  /** set_enable_power_saving: set or clear bit 0, then write. */
  function SetEnablePowerSaving(d: Driver, enable: bool, o: Oracle): (r: Status)
    ensures r.drv.powerSave == Insert(d.powerSave, PowerSaveEnable, Bit(enable))
    ensures Get(r.drv.powerSave, PowerSaveEnable) == Bit(enable)
    ensures Others(r.drv.powerSave, PowerSaveEnable) == Others(d.powerSave, PowerSaveEnable)
    ensures r.drv.config == d.config
    ensures WroteThrough(d, r, PowerSaveCode, r.drv.powerSave, o)
  {
    InsertGet(d.powerSave, PowerSaveEnable, Bit(enable));
    InsertOthers(d.powerSave, PowerSaveEnable, Bit(enable));
    WritePowerSave(d.(powerSave := Insert(d.powerSave, PowerSaveEnable, Bit(enable))), o)
  }

  /** is_power_saving_enabled. */
  function IsPowerSavingEnabled(d: Driver, out: Option<bool>, readRegister: bool, o: Oracle): (r: Reading<bool>)
    ensures !readRegister ==> r.drv == d && r.ok
    ensures readRegister ==> Refreshed(d, r.drv, r.ok, PowerSaveCode, o)
    ensures r.drv.config == d.config
    ensures !r.ok ==> r.out == out
    ensures r.ok ==> r.out == if out.Some? then Some(Get(r.drv.powerSave, PowerSaveEnable) == 1) else None
  {
    var s := Sync(d, PowerSaveCode, readRegister, o);
    if !s.ok then Reading(s.drv, false, out)
    else Reading(s.drv, true, if out.Some? then Some(Get(s.drv.powerSave, PowerSaveEnable) == 1) else None)
  }

  /** set_power_saving_mode: NO range check. Modes of 4 or more spill into
      bit 3 and up; bit 0 (the enable bit) and bits 9 to 15 never change. */
  function SetPowerSavingMode(d: Driver, value: bv8, o: Oracle): (r: Status)
    ensures r.drv.powerSave == Insert(d.powerSave, PowerSaveMode, value as bv16)
    ensures value < 4 ==> Get(r.drv.powerSave, PowerSaveMode) == value as bv16
    ensures value < 4 ==> Others(r.drv.powerSave, PowerSaveMode) == Others(d.powerSave, PowerSaveMode)
    ensures r.drv.config == d.config
    ensures WroteThrough(d, r, PowerSaveCode, r.drv.powerSave, o)
  {
    if value < 4 then
      InsertGet(d.powerSave, PowerSaveMode, value as bv16);
      InsertOthers(d.powerSave, PowerSaveMode, value as bv16);
      WritePowerSave(d.(powerSave := Insert(d.powerSave, PowerSaveMode, value as bv16)), o)
    else
      WritePowerSave(d.(powerSave := Insert(d.powerSave, PowerSaveMode, value as bv16)), o)
  }

  /** get_power_saving_mode. */
  function GetPowerSavingMode(d: Driver, out: Option<bv8>, readRegister: bool, o: Oracle): (r: Reading<bv8>)
    ensures !readRegister ==> r.drv == d && r.ok
    ensures readRegister ==> Refreshed(d, r.drv, r.ok, PowerSaveCode, o)
    ensures r.drv.config == d.config
    ensures !r.ok ==> r.out == out
    ensures r.ok ==> r.out == if out.Some? then Some(Get(r.drv.powerSave, PowerSaveMode) as bv8) else None
  {
    var s := Sync(d, PowerSaveCode, readRegister, o);
    if !s.ok then Reading(s.drv, false, out)
    else Reading(s.drv, true, if out.Some? then Some(Get(s.drv.powerSave, PowerSaveMode) as bv8) else None)
  }

  // ---------------------------------------------------------------------
  // Measurement data register
  // ---------------------------------------------------------------------

  /** A driver after reading the ALS output register into a 16-bit cell. */
  datatype Sample = Sample(drv: Driver, ret: bool, value: bv16)

  /** read_als_high_resolution_output_data as written: it reads the output
      register into the cell (left untouched on failure) but returns the
      NEGATION of the read's status. The wait before the read only looks at
      the cached integration time and is not modelled. */
  function ReadAlsData(d: Driver, prior: bv16, o: Oracle): (r: Sample)
    ensures r.drv.config == d.config && r.drv.powerSave == d.powerSave && r.drv.hasBus == d.hasBus
    ensures r.drv.trace == d.trace + (if d.hasBus then [WriteRead(DeviceAddress, AlsDataCode, o(|d.trace|))] else [])
    ensures r.ret <==> !(d.hasBus && o(|d.trace|).Ack?)
    ensures d.hasBus && o(|d.trace|).Ack? ==> r.value == Decode(o(|d.trace|).lo, o(|d.trace|).hi)
    ensures !(d.hasBus && o(|d.trace|).Ack?) ==> r.value == prior
  {
    var rr := ReadRegister(d, AlsDataCode, o);
    match rr.value
    case None => Sample(rr.drv, true, prior)
    case Some(v) => Sample(rr.drv, false, v)
  }

  /** read_als_high_resolution_output_data as evidently intended: the same
      transaction and cell update, returning the read's own status. */
  function ReadAlsDataCorrected(d: Driver, prior: bv16, o: Oracle): (r: Sample)
    ensures r.drv == ReadAlsData(d, prior, o).drv && r.value == ReadAlsData(d, prior, o).value
    ensures r.ret <==> d.hasBus && o(|d.trace|).Ack?
  {
    var rr := ReadRegister(d, AlsDataCode, o);
    match rr.value
    case None => Sample(rr.drv, false, prior)
    case Some(v) => Sample(rr.drv, true, v)
  }

  // ---------------------------------------------------------------------
  // Initialisation
  // ---------------------------------------------------------------------

  /** Register codes the driver programs. */
  const Persistence1: bv8 := 0x00
  const Gain1_8: bv8 := 0x02
  const IntegrationTime100ms: bv8 := 0x00
  const PowerSaveMode1: bv8 := 0x00

  /** A cache after a read answered by `reply`: the decoded register value,
      or the old cache `fallback` when the read failed. */
  function ReadOr(reply: Reply, fallback: bv16): bv16
  {
    match reply
    case Ack(lo, hi) => Decode(lo, hi)
    case Nak => fallback
  }

  /** The two seeding reads of initialize: each cache takes its register's
      value, or keeps its old value when the read fails. */
  function SeedCaches(d: Driver, o: Oracle): (drv: Driver)
    requires d.hasBus
    ensures drv.hasBus
    ensures drv.trace == d.trace + [WriteRead(DeviceAddress, ConfigCode, o(|d.trace|)),
                                    WriteRead(DeviceAddress, PowerSaveCode, o(|d.trace| + 1))]
    ensures drv.config == ReadOr(o(|d.trace|), d.config)
    ensures drv.powerSave == ReadOr(o(|d.trace| + 1), d.powerSave)
  {
    var s1 := Sync(d, ConfigCode, true, o);
    var s2 := Sync(s1.drv, PowerSaveCode, true, o);
    s2.drv
  }

  /** Positions `from` up to `to` of trace `t` are writes to register
      `code` of the sensor, each acknowledged iff its oracle reply is. */
  ghost predicate WritesTo(t: seq<Txn>, from: nat, to: nat, code: bv8, o: Oracle)
  {
    && from <= to <= |t|
    && forall k :: from <= k < to ==>
         t[k].Write? && t[k].addr == DeviceAddress && t[k].code == code && t[k].acked == o(k).Ack?
  }

  /** `u` extends `t`: it begins with all of `t`. */
  ghost predicate Extends(u: seq<Txn>, t: seq<Txn>)
  {
    |t| <= |u| && u[..|t|] == t
  }

  /** One write appended to a trace. */
  lemma OneWrite(t: seq<Txn>, u: seq<Txn>, code: bv8, v: bv16, o: Oracle)
    requires u == t + [Write(DeviceAddress, code, v, o(|t|).Ack?)]
    ensures Extends(u, t) && |u| == |t| + 1
    ensures WritesTo(u, |t|, |t| + 1, code, o) && u[|t|].value == v
  {
  }

  /** A longer trace keeps what a shorter one it extends holds. */
  lemma Keep(t: seq<Txn>, u: seq<Txn>, w: seq<Txn>, from: nat, to: nat, code: bv8, o: Oracle)
    requires WritesTo(t, from, to, code, o) && Extends(u, t) && Extends(w, u)
    ensures WritesTo(w, from, to, code, o) && Extends(w, t)
    ensures forall k :: 0 <= k < |t| ==> w[k] == t[k]
  {
    assert forall k :: 0 <= k < |u| ==> w[k] == u[k];
    assert forall k :: 0 <= k < |t| ==> u[k] == t[k];
  }

  /** A run of writes ending a trace joins the run that follows it. */
  lemma Join(t: seq<Txn>, u: seq<Txn>, from: nat, code: bv8, o: Oracle)
    requires WritesTo(t, from, |t|, code, o) && Extends(u, t) && WritesTo(u, |t|, |u|, code, o)
    ensures WritesTo(u, from, |u|, code, o)
  {
    assert forall k :: 0 <= k < |t| ==> u[k] == t[k];
  }

  /** The first three setters of initialize's sequence: shutdown,
      interrupt off, persistence 1 sample. */
  function StopAndQuiet(d: Driver, o: Oracle): (r: Status)
    ensures r.drv.hasBus == d.hasBus && r.drv.powerSave == d.powerSave
    ensures r.drv.config == Insert(Insert(Insert(d.config, Shutdown, 1), InterruptEnable, 0), Persistence, 0)
    ensures !d.hasBus ==> r.drv.trace == d.trace
    ensures d.hasBus ==> Extends(r.drv.trace, d.trace) && |r.drv.trace| == |d.trace| + 3
    ensures d.hasBus ==> WritesTo(r.drv.trace, |d.trace|, |r.drv.trace|, ConfigCode, o)
    ensures d.hasBus ==> r.drv.trace[|d.trace|].value == Insert(d.config, Shutdown, 1)
  {
    var s3 := ShutDown(d, o);
    var s4 := SetEnableInterrupt(s3.drv, false, o);
    var s5 := SetPersistence(s4.drv, Persistence1, o);
    if d.hasBus then
      OneWrite(d.trace, s3.drv.trace, ConfigCode, s3.drv.config, o);
      OneWrite(s3.drv.trace, s4.drv.trace, ConfigCode, s4.drv.config, o);
      OneWrite(s4.drv.trace, s5.drv.trace, ConfigCode, s5.drv.config, o);
      Join(s3.drv.trace, s4.drv.trace, |d.trace|, ConfigCode, o);
      Join(s4.drv.trace, s5.drv.trace, |d.trace|, ConfigCode, o);
      Keep(d.trace, s3.drv.trace, s4.drv.trace, 0, 0, ConfigCode, o);
      Keep(s3.drv.trace, s4.drv.trace, s5.drv.trace, |d.trace|, |d.trace| + 1, ConfigCode, o);
      Keep(d.trace, s4.drv.trace, s5.drv.trace, 0, 0, ConfigCode, o);
      s5
    else s5
  }

  /** The next two setters: gain 1/8, integration time 100 ms. */
  function SetRange(d: Driver, o: Oracle): (r: Status)
    ensures r.drv.hasBus == d.hasBus && r.drv.powerSave == d.powerSave
    ensures r.drv.config == Insert(Insert(d.config, Gain, 2), IntegrationTime, 0)
    ensures !d.hasBus ==> r.drv.trace == d.trace
    ensures d.hasBus ==> Extends(r.drv.trace, d.trace) && |r.drv.trace| == |d.trace| + 2
    ensures d.hasBus ==> WritesTo(r.drv.trace, |d.trace|, |r.drv.trace|, ConfigCode, o)
  {
    var s6 := SetGain(d, Gain1_8, o);
    var s7 := SetIntegrationTime(s6.drv, IntegrationTime100ms, o);
    if d.hasBus then
      OneWrite(d.trace, s6.drv.trace, ConfigCode, s6.drv.config, o);
      OneWrite(s6.drv.trace, s7.drv.trace, ConfigCode, s7.drv.config, o);
      Join(s6.drv.trace, s7.drv.trace, |d.trace|, ConfigCode, o);
      Keep(d.trace, s6.drv.trace, s7.drv.trace, 0, 0, ConfigCode, o);
      s7
    else s7
  }

  /** The last two setters: power-saving mode 1, then power on. */
  function Resume(d: Driver, o: Oracle): (r: Status)
    ensures r.drv.hasBus == d.hasBus
    ensures r.drv.config == Insert(d.config, Shutdown, 0)
    ensures r.drv.powerSave == Insert(d.powerSave, PowerSaveMode, 0)
    ensures !d.hasBus ==> r.drv.trace == d.trace
    ensures d.hasBus ==> Extends(r.drv.trace, d.trace) && |r.drv.trace| == |d.trace| + 2
    ensures d.hasBus ==> WritesTo(r.drv.trace, |d.trace|, |d.trace| + 1, PowerSaveCode, o)
    ensures d.hasBus ==> WritesTo(r.drv.trace, |d.trace| + 1, |d.trace| + 2, ConfigCode, o)
    ensures d.hasBus ==> r.drv.trace[|d.trace|].value == r.drv.powerSave
    ensures d.hasBus ==> r.drv.trace[|d.trace| + 1].value == r.drv.config
  {
    var s8 := SetPowerSavingMode(d, PowerSaveMode1, o);
    var s9 := PowerOn(s8.drv, o);
    if d.hasBus then
      OneWrite(d.trace, s8.drv.trace, PowerSaveCode, s8.drv.powerSave, o);
      OneWrite(s8.drv.trace, s9.drv.trace, ConfigCode, s9.drv.config, o);
      assert s9.drv.trace[|d.trace|] == s8.drv.trace[|d.trace|];
      s9
    else s9
  }

  /** `t` is `t0` followed by the seven writes of initialize's setter
      sequence: five to the configuration register, the first carrying
      `first`, then one of `saving` to the power-saving register, then one
      of `config` to the configuration register. */
  ghost predicate Programmed(t0: seq<Txn>, t: seq<Txn>, first: bv16, saving: bv16, config: bv16, o: Oracle)
  {
    var n := |t0|;
    && |t| == n + 7 && t[..n] == t0
    && WritesTo(t, n, n + 5, ConfigCode, o)
    && WritesTo(t, n + 5, n + 6, PowerSaveCode, o)
    && WritesTo(t, n + 6, n + 7, ConfigCode, o)
    && t[n].value == first && t[n + 5].value == saving && t[n + 6].value == config
  }

  /** The seven setters in order, with the configuration word as the
      chain of field inserts they make. */
  function SetterSequence(d: Driver, o: Oracle): (r: Status)
    ensures r.drv.hasBus == d.hasBus
    ensures r.drv.config == Insert(Insert(Insert(Insert(Insert(Insert(d.config, Shutdown, 1), InterruptEnable, 0),
                                                        Persistence, 0), Gain, 2), IntegrationTime, 0), Shutdown, 0)
    ensures r.drv.powerSave == Insert(d.powerSave, PowerSaveMode, 0)
    ensures !d.hasBus ==> r.drv.trace == d.trace
    ensures d.hasBus ==> Programmed(d.trace, r.drv.trace, Insert(d.config, Shutdown, 1), r.drv.powerSave, r.drv.config, o)
  {
    var a := StopAndQuiet(d, o);
    var b := SetRange(a.drv, o);
    var c := Resume(b.drv, o);
    if d.hasBus then
      Join(a.drv.trace, b.drv.trace, |d.trace|, ConfigCode, o);
      Keep(b.drv.trace, b.drv.trace, c.drv.trace, |d.trace|, |d.trace| + 5, ConfigCode, o);
      Keep(d.trace, a.drv.trace, b.drv.trace, 0, 0, ConfigCode, o);
      Keep(d.trace, b.drv.trace, c.drv.trace, 0, 0, ConfigCode, o);
      c
    else c
  }

  /** The fixed setter sequence of initialize, applied to seeded caches:
      shutdown, interrupt off, persistence 1 sample, gain 1/8, integration
      time 100 ms, power-saving mode 1, power on. Seven writes, whatever
      their outcome: the sixth to the power-saving register and the others
      to the configuration register, the first carrying the shut-down word
      and the last two the final words. */
  function ConfigureChip(d: Driver, o: Oracle): (r: Status)
    ensures r.drv.hasBus == d.hasBus
    ensures r.drv.config == StartConfig(d.config)
    ensures r.drv.powerSave == StartSaving(d.powerSave)
    ensures !d.hasBus ==> r.drv.trace == d.trace
    ensures d.hasBus ==> Programmed(d.trace, r.drv.trace, ShutWord(d.config), r.drv.powerSave, r.drv.config, o)
  {
    var s := SetterSequence(d, o);
    InitialConfig(d.config);
    InitialPowerSave(d.powerSave);
    ShutdownMask(d.config);
    Status(s.drv, true)
  }

  /** The three reads initialize starts with when the bus is present,
      numbered from transaction `n`: the device ID, then the two registers
      it seeds the caches from. */
  function SeedingReads(n: nat, o: Oracle): seq<Txn>
  {
    [WriteRead(DeviceAddress, DeviceIdCode, o(n)), WriteRead(DeviceAddress, ConfigCode, o(n + 1)),
     WriteRead(DeviceAddress, PowerSaveCode, o(n + 2))]
  }

  /** The seeding reads after the device-ID read are the three reads of
      SeedingReads. */
  lemma SeedingReadsFollow(t0: seq<Txn>, t1: seq<Txn>, t: seq<Txn>, o: Oracle, first: bv16, saving: bv16, config: bv16)
    requires t1 == t0 + [WriteRead(DeviceAddress, DeviceIdCode, o(|t0|))]
    requires Programmed(t1 + [WriteRead(DeviceAddress, ConfigCode, o(|t1|)), WriteRead(DeviceAddress, PowerSaveCode, o(|t1| + 1))],
                        t, first, saving, config, o)
    ensures Programmed(t0 + SeedingReads(|t0|, o), t, first, saving, config, o)
  {
    assert t1 + [WriteRead(DeviceAddress, ConfigCode, o(|t1|)), WriteRead(DeviceAddress, PowerSaveCode, o(|t1| + 1))]
           == t0 + SeedingReads(|t0|, o);
  }

  /** `r` is a driver that initialize has started up from the trace `t`
      and the caches `config` and `saving`: the three reads of
      SeedingReads, then the seven writes of the setter sequence on the
      seeded caches, leaving the start-up configuration in both caches. */
  ghost predicate StartedUp(t: seq<Txn>, config: bv16, saving: bv16, r: Driver, o: Oracle)
  {
    var n := |t|;
    && r.config == StartConfig(ReadOr(o(n + 1), config))
    && r.powerSave == StartSaving(ReadOr(o(n + 2), saving))
    && |r.trace| == n + 10
    && Programmed(t + SeedingReads(n, o), r.trace, ShutWord(ReadOr(o(n + 1), config)), r.powerSave, r.config, o)
  }

  /** What initialize does once the device ID has been read (`d.trace`
      is `t0` followed by that read): seed both caches from the chip, then
      run the setter sequence on them. */
  function SeedAndConfigure(d: Driver, t0: seq<Txn>, o: Oracle): (r: Status)
    requires d.hasBus && d.trace == t0 + [WriteRead(DeviceAddress, DeviceIdCode, o(|t0|))]
    ensures r.ok && r.drv.hasBus
    ensures StartedUp(t0, d.config, d.powerSave, r.drv, o)
  {
    var seeded := SeedCaches(d, o);
    var s := ConfigureChip(seeded, o);
    SeedingReadsFollow(t0, d.trace, s.drv.trace, o, ShutWord(ReadOr(o(|t0| + 1), d.config)),
                       s.drv.powerSave, s.drv.config);
    Status(s.drv, true)
  }

  /** initialize: attach the bus (`bus` is false for a null controller),
      read the device ID and give up if that fails, before either cache is
      seeded. Otherwise seed both caches (a failed seeding read keeps the
      old cache), run the fixed setter sequence and return true whatever
      the later reads and writes did. */
  function Initialize(d: Driver, bus: bool, o: Oracle): (r: Status)
    ensures r.drv.hasBus == bus
    ensures r.ok <==> bus && o(|d.trace|).Ack?
    ensures !r.ok ==> r.drv.config == d.config && r.drv.powerSave == d.powerSave
    ensures !r.ok ==> r.drv.trace == d.trace + (if bus then [WriteRead(DeviceAddress, DeviceIdCode, Nak)] else [])
    ensures r.ok ==> StartedUp(d.trace, d.config, d.powerSave, r.drv, o)
  {
    var id := ReadRegister(d.(hasBus := bus), DeviceIdCode, o);
    if id.value.None? then Status(id.drv, false)
    else SeedAndConfigure(id.drv, d.trace, o)
  }

}

=== FILE: wrappers.dfy ===
/** The optional-value type used for nullable output pointers and failed reads. */
module Wrappers {

  datatype Option<+T> = None | Some(value: T)

}
